=== FILE: README.md ===
# Healthcare scheduling validators, in Dafny

This project models the input validation of a small clinic scheduling system
(patients, appointments, and a configurable appointment workflow) and proves
what that validation guarantees.

- **Server validators** (`apps/server/src/graphql/validations.ts`). The
  create and update schemas for patients and appointments, and the
  save-workflow schema.
- **Client appointment form schema** (`apps/web/src/schemas/appointment.ts`).
  Every field is a required string, and the end-after-start rule compares the
  two "HH:MM" strings as strings.
- **Display helpers** (`apps/web/src/lib/utils.ts`). `fieldError`, and the
  empty-value guards of `formatDate` and `formatTime`.

The schemas are written with Zod 4; `zod.dfy` models the building blocks they
use. A validator takes a JavaScript value (`Js.Value`: JSON data plus
`undefined`). It returns either the parsed record or a non-empty list of
issues, each with a path, a kind and the schema's custom message.

JavaScript semantics are modelled where a rule depends on them:
- string length and `<` count UTF-16 code units;
- `z.coerce.date()` is `new Date(v)`, including null becoming the epoch;
- `String(v)` may throw;
- truthiness.

Engine and library behaviour whose code is not part of this model is a
parameter, the `Js.Runtime` record: the email and UUID patterns, `Date.parse`,
number formatting, and en-US locale formatting.

Modules follow the program:

| module | file | models |
|---|---|---|
| `Wrappers` | `wrappers.dfy` | `Option` and `Result` |
| `Js` | `js.dfy` | the JavaScript semantics above |
| `Zod` | `zod.dfy` | the schema building blocks |
| `Domain` | `domain.dfy` | the gender and status enumerations |
| `Patients` | `patients.dfy` | the patient schemas |
| `Appointments` | `appointments.dfy` | the appointment schemas |
| `Workflow` | `workflow.dfy` | the workflow schema |
| `AppointmentForm` | `appointment_form.dfy` | the client form |
| `Format` | `web_utils.dfy` | the display helpers |

Two rules of the patient schemas are easy to misread:
- A phone that is present and not null must be 1 to 20 units long
  (`min(1)`), so `""` is refused.
- The patient update schema is `.partial()`. That makes `name` optional but
  not nullable, so `{name: null}` is refused by update.

Zod reports a refinement's issue only in some library versions when a field
has already failed. The model raises the end-after-start issue only when
every field passed. So every lemma about that issue assumes the other fields
are in order.

## Model

| member | source | states |
|---|---|---|
| `Domain.GenderFromName` | apps/server/src/graphql/validations.ts:3 | a wire value names a gender exactly when it is "male" or "female", and that gender's name is the value |
| `Domain.GenderNameRoundTrip` | packages/db/src/schema/patients.ts:6 | every gender stored in the column reads back as itself from its name |
| `Domain.StatusFromName` | apps/server/src/graphql/validations.ts:4-8 | a wire value names a status exactly when it is one of "scheduled", "completed", "cancelled" |
| `Domain.StatusNameRoundTrip` | packages/db/src/schema/appointments.ts:6-10 | every stored status reads back as itself from its name |
| `Js.ToJsStringDefined` | apps/web/src/lib/utils.ts:30 | `String(v)` yields text exactly for the values without an own non-callable `toString`, arrays element-wise |
| `Zod.ParseString` | apps/server/src/graphql/validations.ts:11 | a string is accepted exactly when its UTF-16 length is within the bounds; a non-string gets one type issue; a too-short or too-long string gets exactly the minimum or maximum issue with its message |
| `Zod.ParseEnum` | apps/server/src/graphql/validations.ts:15 | accepted exactly when the value is one of the option strings; otherwise one invalid-value issue |
| `Zod.ParseDate` | apps/server/src/graphql/validations.ts:26-27 | accepted exactly when `new Date(v)` is a valid date, yielding its time value |
| `Zod.ParseOrder` | apps/server/src/graphql/validations.ts:62 | accepted exactly when the value is a non-negative safe integer, yielding that integer; a fraction gets the single integer issue |
| `Zod.ParseFormat` | apps/server/src/graphql/validations.ts:12 | a string is accepted exactly when the format pattern matches it, yielding that string; a failure of either kind carries the schema's message |
| `Js.NewDate` | apps/server/src/graphql/validations.ts:26-27 | `new Date(v)`: undefined is invalid, null is the epoch, booleans are 0 or 1, a number within ±8.64e15 ms is truncated toward zero and beyond it is invalid, a string is parsed, and an array or object is parsed from its `String` form, invalid when that throws |
| `Js.StringLessAsymmetric` | apps/web/src/schemas/appointment.ts:20-23 | two strings are never each below the other under JavaScript `<` |
| `Zod.Nullish` | apps/server/src/graphql/validations.ts:12-16 | undefined and null pass and stay distinguishable; any other value passes or fails as the inner schema does |
| `Zod.Optional` | apps/server/src/graphql/validations.ts:19 | undefined passes; null and everything else go to the inner schema |
| `Patients.ParseName` | apps/server/src/graphql/validations.ts:11 | a name is 1 to 255 units; "" is reported as "Name is required" |
| `Patients.ParseEmail` | apps/server/src/graphql/validations.ts:12 | absent, null or a valid address; every email issue carries "Invalid email" |
| `Patients.ParsePhone` | apps/server/src/graphql/validations.ts:13 | absent, null or 1 to 20 units |
| `Patients.ParseDateOfBirth` | apps/server/src/graphql/validations.ts:14 | absent, null or any value `new Date` turns into a valid date |
| `Patients.ParseGender` | apps/server/src/graphql/validations.ts:15 | absent, null, "male" or "female", kept as the matching gender |
| `Patients.ParseAddress` | apps/server/src/graphql/validations.ts:16 | absent, null or at most 500 units |
| `Patients.ValidateCreatePatient` | apps/server/src/graphql/validations.ts:10-17 | create succeeds exactly when every field passes its rule, and the result carries exactly the declared fields' values |
| `Patients.ValidateUpdatePatient` | apps/server/src/graphql/validations.ts:19 | update succeeds exactly when every present field passes the create rule (name may be absent, not null), carrying exactly those values |
| `Patients.CreatePatientIssues` | apps/server/src/graphql/validations.ts:10-17 | a rejected create has an issue at a field's path exactly when that field breaks its rule |
| `Patients.CreatePatientFailure` | apps/server/src/graphql/validations.ts:10-17 | a rejected create reports the issues of every field, in the order the fields are declared |
| `Patients.CreateNameRule` | apps/server/src/graphql/validations.ts:11 | with the other fields valid, create accepts exactly names of 1 to 255 units |
| `Patients.EmptyNameMessage` | apps/server/src/graphql/validations.ts:11 | an empty name with valid other fields gives exactly one issue, "Name is required" at `name` |
| `Patients.NullishFieldsAccepted` | apps/server/src/graphql/validations.ts:12-16 | every optional field accepts absent and null, in create and in update |
| `Patients.EmptyPhoneRejected` | apps/server/src/graphql/validations.ts:13 | an empty phone is refused by create (with an issue at `phone`) and by update |
| `Patients.UpdateAcceptsCreate` | apps/server/src/graphql/validations.ts:19 | update accepts every create input and yields the same field values |
| `Patients.EmptyUpdateAccepted` | apps/server/src/graphql/validations.ts:19 | the empty update is accepted and sets nothing |
| `Patients.UpdateRejectsNullName` | apps/server/src/graphql/validations.ts:19 | update refuses a null name |
| `Patients.UpdatePatientIssues` | apps/server/src/graphql/validations.ts:19 | a rejected update has an issue at a field's key exactly when that field breaks its update rule (the name may be absent, never null) |
| `Patients.UpdatePatientFailure` | apps/server/src/graphql/validations.ts:19 | a rejected update reports the issues of every field, in the order the fields are declared |
| `Appointments.ParseTitle` | apps/server/src/graphql/validations.ts:24 | a title is 1 to 255 units, reported at `title`; "" gets "Title is required" |
| `Appointments.ParseUpdateTitle` | apps/server/src/graphql/validations.ts:37 | absent, null or 1 to 255 units, reported at `title`; "" gets the minimum issue in the library's default wording |
| `Appointments.ParseDescription` | apps/server/src/graphql/validations.ts:25 | absent, null or at most 1000 units |
| `Appointments.ParseStatus` | apps/server/src/graphql/validations.ts:41 | a status value is one of the three names; otherwise one invalid-value issue |
| `Appointments.ParseStatusWithDefault` | apps/server/src/graphql/validations.ts:28 | an absent status becomes "scheduled" without being checked; any other value is checked as a status |
| `Appointments.ValidateCreateAppointment` | apps/server/src/graphql/validations.ts:21-33 | create succeeds exactly when every field passes and the end is strictly after the start; the result keeps the values, with status defaulting to scheduled; with valid fields and unordered times the only issue is "End time must be after start time" at `endTime` |
| `Appointments.ValidateUpdateAppointment` | apps/server/src/graphql/validations.ts:35-54 | update succeeds exactly when every present field passes and, if both times are given, the end is after the start; the patch is exactly what the input denotes, a missing key absent and an explicit null kept as null |
| `Appointments.UpdateKeepsAbsentAndNullApart` | apps/server/src/graphql/validations.ts:37-41 | `{}` is the empty patch, while `{startTime: null, status: null}` asks to clear exactly those two fields |
| `Appointments.CreateRejectsEndNotAfterStart` | apps/server/src/graphql/validations.ts:30-33 | an end at or before the start is always refused, and with valid fields by the refinement's issue at `endTime` alone |
| `Appointments.CreateAppointmentIssues` | apps/server/src/graphql/validations.ts:21-28 | when some field breaks its rule, create fails with an issue at a field's key exactly when that field breaks its rule |
| `Appointments.CreateAppointmentFailure` | apps/server/src/graphql/validations.ts:21-28 | when some field breaks its rule, create fails with the fields' issues in declaration order |
| `Appointments.UpdateAppointmentIssues` | apps/server/src/graphql/validations.ts:35-42 | when some field breaks its rule, update fails with an issue at a field's key exactly when that field is neither absent, null nor valid |
| `Appointments.UpdateAppointmentFailure` | apps/server/src/graphql/validations.ts:35-42 | when some field breaks its rule, update fails with the fields' issues in declaration order |
| `Appointments.CreateRejectsEqualTimes` | apps/server/src/graphql/validations.ts:30 | equal start and end are refused |
| `Appointments.CreateStatusRule` | apps/server/src/graphql/validations.ts:28 | with the rest valid, create accepts exactly an absent status or one of the three names, and absent yields scheduled |
| `Appointments.CreateCoercesNullTimeToEpoch` | apps/server/src/graphql/validations.ts:26 | a null start time is coerced to the epoch, not refused: with the other fields in order and an end after the epoch, create accepts |
| `Appointments.CreateEmptyTitleMessage` | apps/server/src/graphql/validations.ts:24 | create refuses an empty title with "Title is required" at `title` |
| `Appointments.UpdateEmptyTitleIssue` | apps/server/src/graphql/validations.ts:37 | update refuses `{title: ""}` with exactly one issue, the minimum at `title`, without a custom message |
| `Appointments.UpdateSkipsOrderCheckForOneTime` | apps/server/src/graphql/validations.ts:43-49 | with one time absent or null, a field-valid update is accepted whatever the other time is |
| `Appointments.UpdateRejectsEndNotAfterStart` | apps/server/src/graphql/validations.ts:45-53 | with both times given and the end not after the start, update fails with exactly the refinement's issue at `endTime` |
| `Appointments.UpdateReadsDeclaredKeysOnly` | apps/server/src/graphql/validations.ts:35-42 | two inputs that agree on the five declared keys get the same outcome |
| `Appointments.UpdateIgnoresPatientId` | apps/server/src/graphql/validations.ts:36-42 | a `patientId` in an update changes nothing |
| `Appointments.UpdateAcceptsCreate` | apps/server/src/graphql/validations.ts:21-54 | update accepts every input create accepts |
| `Workflow.ValidateStep` | apps/server/src/graphql/validations.ts:59-63 | a step passes exactly when its id is absent, null or a UUID, its label is 1 to 255 units and its order a non-negative safe integer; every issue's path starts with the step's own path |
| `Workflow.StepIssuesUnder` | apps/server/src/graphql/validations.ts:59-63 | every issue of a step validated under a path starts with that path |
| `Workflow.StepIssuesAt` | apps/server/src/graphql/validations.ts:59-63 | a step has issues exactly when it fails, and each names the step's index |
| `Workflow.ValidateSteps` | apps/server/src/graphql/validations.ts:57-64 | the list passes exactly when each step does, and the output matches the input step by step |
| `Workflow.StepIssuesNameFailingSteps` | apps/server/src/graphql/validations.ts:57-64 | every issue of a step list sits under the index of a step that breaks a rule |
| `Workflow.FailingStepsNamed` | apps/server/src/graphql/validations.ts:57-64 | every step that breaks a rule has an issue under its index |
| `Workflow.StepIssuesBlame` | apps/server/src/graphql/validations.ts:57-64 | every step issue names a failing step, and every failing step is named |
| `Workflow.ValidateSaveWorkflow` | apps/server/src/graphql/validations.ts:56-66 | save succeeds exactly for a non-empty list of valid steps; an empty list gets only "At least one step is required" |
| `Workflow.SaveBlamesFailingSteps` | apps/server/src/graphql/validations.ts:57-65 | for a non-empty list, an issue sits under step `j` exactly when step `j` fails |
| `Workflow.StepsCheckedIndependently` | apps/server/src/graphql/validations.ts:57-65 | a list is accepted exactly when each step is accepted on its own: no rule relates steps |
| `Workflow.DuplicateOrdersAccepted` | apps/server/src/graphql/validations.ts:62 | two identical steps, same order and label, are accepted together |
| `Workflow.IntakeStepAccepted` | apps/server/src/graphql/validations.ts:56-66 | `{steps: [{label: "Intake", order: 0}]}` yields one new step with no id |
| `AppointmentForm.ParseRequired` | apps/web/src/schemas/appointment.ts:7-15 | a required text field is a non-empty string; "" gets its own "... is required" message |
| `AppointmentForm.ParseTitle` | apps/web/src/schemas/appointment.ts:8-11 | a title is 2 to 255 units; shorter or longer gets the matching message |
| `AppointmentForm.ParseDescription` | apps/web/src/schemas/appointment.ts:12 | any string up to 1000 units, "" included; longer is "Description is too long" |
| `AppointmentForm.ParseFormStatus` | apps/web/src/schemas/appointment.ts:16-18 | a status is one of the three names; any failure is "Status is required" |
| `AppointmentForm.ValidateAppointmentForm` | apps/web/src/schemas/appointment.ts:5-23 | the form is accepted exactly when every field passes and the end string sorts after the start string; it keeps the values; with valid fields and unordered times the only issue is the refinement's at `endTime` |
| `AppointmentForm.FormIssues` | apps/web/src/schemas/appointment.ts:6-19 | when some field breaks its rule, the form fails with an issue at a field's key exactly when that field breaks its rule, so each error shows under its own field |
| `AppointmentForm.FormFailure` | apps/web/src/schemas/appointment.ts:6-19 | when some field breaks its rule, the form fails with the fields' issues in declaration order |
| `AppointmentForm.EmptyRequiredFieldRejected` | apps/web/src/schemas/appointment.ts:7-15 | an empty patient, date, start or end is refused with that field's message |
| `AppointmentForm.TitleRule` | apps/web/src/schemas/appointment.ts:8-11 | with the rest valid, the form accepts exactly titles of 2 to 255 units |
| `AppointmentForm.OneCharacterTitleRejected` | apps/web/src/schemas/appointment.ts:10 | a one-character title is reported as "Title must be at least 2 characters" |
| `AppointmentForm.EmptyDescriptionAllowed` | apps/web/src/schemas/appointment.ts:12 | an empty description does not block the form |
| `AppointmentForm.BadStatusMessage` | apps/web/src/schemas/appointment.ts:16-18 | any status but the three names is reported as "Status is required" |
| `AppointmentForm.EqualTimesRejected` | apps/web/src/schemas/appointment.ts:20-23 | equal start and end strings are refused, by the refinement at `endTime` when the rest is valid |
| `AppointmentForm.SwappedTimesRejected` | apps/web/src/schemas/appointment.ts:20-23 | swapping the times of an accepted form makes it fail with exactly the refinement's issue at `endTime` |
| `AppointmentForm.ClockStringOrder` | apps/web/src/schemas/appointment.ts:20 | on zero-padded "HH:MM" strings, string order is clock order |
| `AppointmentForm.ClockTimesRule` | apps/web/src/schemas/appointment.ts:20-23 | with valid fields and clock times, the form is accepted exactly when the end is later in the day |
| `AppointmentForm.UnpaddedHourMisorders` | apps/web/src/schemas/appointment.ts:20 | without padding the comparison is wrong: "10:00" sorts before "9:00" |
| `AppointmentForm.DefaultFieldResults` | apps/web/src/routes/appointments.new.tsx:42-51 | of the starting values, patient and title fail with their messages and every other field passes |
| `AppointmentForm.DefaultValuesReport` | apps/web/src/routes/appointments.new.tsx:42-51 | the starting values pass the time and status rules and are refused with exactly the patient and title issues |
| `AppointmentForm.FormFieldsPassServer` | apps/web/src/routes/appointments.new.tsx:55-64 | an accepted form's submission passes the server's title, description and status rules, the empty description being sent as undefined |
| `AppointmentForm.FormAcceptanceCarriesToServer` | apps/web/src/routes/appointments.new.tsx:55-64 | with a UUID patient and ordered combined times, the server accepts what an accepted form submits and keeps the form's values |
| `Format.FieldError` | apps/web/src/lib/utils.ts:26-31 | a string is shown unchanged; an object with `message` shows exactly `String(message)`; anything else shows exactly `String(error)`; text results exactly when that conversion does not throw |
| `Format.FieldErrorOfNullish` | apps/web/src/lib/utils.ts:30 | null shows as "null" and undefined as "undefined" |
| `Format.FieldErrorOfPlainObject` | apps/web/src/lib/utils.ts:30 | an object without a message shows "[object Object]" |
| `Format.FieldErrorOfStringMessage` | apps/web/src/lib/utils.ts:28-29 | a string message is shown unchanged |
| `Format.FieldErrorShowsIssueMessage` | apps/web/src/lib/utils.ts:25-29 | a schema issue is shown as its message |
| `Format.FieldErrorThrowsOnUnprintableMessage` | apps/web/src/lib/utils.ts:28-29 | a message object with its own `toString` data property has no text: the call throws |
| `Format.FormatDate` | apps/web/src/lib/utils.ts:8-15 | null, undefined and "" show "—"; other strings show the locale date |
| `Format.FormatTime` | apps/web/src/lib/utils.ts:17-23 | null, undefined and "" show ""; other strings show the locale time |
| `Format.FalsyDateInputs` | apps/web/src/lib/utils.ts:8-9 | among the accepted inputs, the guard fires exactly for null, undefined and "" |

## Left out

- Numbers are finite reals. NaN, the infinities and `-0` are not modelled, and neither are functions, symbols, `Date` objects or class instances as input values.
- Strings cannot hold lone surrogates, so a string's UTF-16 form is always well-formed.
- Zod's default issue wording is not modelled (`None` in an issue), nor is the order of issues beyond the field order of the schema.
- Zod version-dependent behaviour is not modelled: whether a refinement also runs when a field failed. The end-after-start issue is raised only when every field passed.
- The email and UUID patterns, `Date.parse`, number-to-string conversion and en-US locale formatting are `Js.Runtime` parameters. Their own code is not part of this model.
- `combineDateAndTime` and the other date helpers (`toDateKey`, `groupByDateKey`, `getMonthDateRange`) are not modelled. `AppointmentForm.FormAcceptanceCarriesToServer` takes the combined times as inputs.
- The `cn` class-name helper, the React components, the GraphQL documents, the urql cache, the server bootstrap and the database tables are not modelled. The database is kept only for its two enumerations.
- The edit-appointment route's starting values come from a stored appointment and are not modelled.
- Exceptions are modelled as `None` (`Format.FieldError`, `Js.ToJsString`). Which error is thrown is not modelled.

=== FILE: appointment_form.dfy ===
/**
 * The web client's appointment form schema, `appointmentFormSchema`. Every
 * field is a required string (the status an enum); the time fields are the
 * "HH:MM" strings of time inputs, and the end-after-start refinement compares
 * them as strings.
 */
module AppointmentForm {
  import opened Wrappers
  import opened Js
  import opened Zod
  import opened Domain
  import Appointments

  /** The form's values once the schema accepts them. */
  datatype FormValues = FormValues(
    patientId: string,
    title: string,
    description: string,
    date: string,
    startTime: string,
    endTime: string,
    status: Status)

  const PatientMessage: string := "Patient is required"
  const TitleMinMessage: string := "Title must be at least 2 characters"
  const TitleMaxMessage: string := "Title must be at most 255 characters"
  const DescriptionMessage: string := "Description is too long"
  const DateMessage: string := "Date is required"
  const StartTimeMessage: string := "Start time is required"
  const EndTimeMessage: string := "End time is required"
  const StatusMessage: string := "Status is required"

  /** The form raises the same end-after-start issue as the server. */
  const EndAfterStartIssue: Issue := Appointments.EndAfterStartIssue

  // ---------------------------------------------------------------------
  // The rules, read directly off the schema
  // ---------------------------------------------------------------------

  predicate FilledIn(v: Value) { v.Str? && Length(v.s) >= 1 }
  predicate TitleOk(v: Value) { v.Str? && 2 <= Length(v.s) <= 255 }
  predicate DescriptionOk(v: Value) { v.Str? && Length(v.s) <= 1000 }

  /** Every field but `skip` passes its own rule. */
  predicate FieldsOkExcept(props: map<string, Value>, skip: string) {
    && (skip != "patientId" ==> FilledIn(Get(props, "patientId")))
    && (skip != "title" ==> TitleOk(Get(props, "title")))
    && (skip != "description" ==> DescriptionOk(Get(props, "description")))
    && (skip != "date" ==> FilledIn(Get(props, "date")))
    && (skip != "startTime" ==> FilledIn(Get(props, "startTime")))
    && (skip != "endTime" ==> FilledIn(Get(props, "endTime")))
    && (skip != "status" ==> Appointments.StatusNameOk(Get(props, "status")))
  }

  /** Every field passes its own rule. */
  predicate FieldsOk(props: map<string, Value>) {
    FieldsOkExcept(props, "")
  }

  /** The refinement: `endTime > startTime` as JavaScript compares strings. */
  predicate EndAfterStart(props: map<string, Value>)
    requires Get(props, "startTime").Str? && Get(props, "endTime").Str?
  {
    StringLess(Get(props, "startTime").s, Get(props, "endTime").s)
  }

  predicate FormAccepts(input: Value) {
    input.Obj? && FieldsOk(input.props) && EndAfterStart(input.props)
  }

  /** The message the schema attaches to an empty required field. */
  function RequiredMessage(key: string): string {
    if key == "patientId" then PatientMessage
    else if key == "date" then DateMessage
    else if key == "startTime" then StartTimeMessage
    else EndTimeMessage
  }

  /** `z.string().min(1, message)` for a required field. */
  function ParseRequired(props: map<string, Value>, key: string): (r: Parsed<string>)
    ensures r.Success? <==> FilledIn(Get(props, key))
    ensures r.Success? ==> r.value == Get(props, key).s
    ensures Get(props, key) == Str("") ==> r == Failure([Issue([Key(key)], TooSmall(1), Some(RequiredMessage(key)))])
    ensures ReportsAt(r, [Key(key)])
  {
    ParseString(Get(props, key), [Key(key)], StringRule(1, Some(RequiredMessage(key)), None, None))
  }

  /** `z.string().min(2, ..).max(255, ..)` for the title. */
  function ParseTitle(v: Value): (r: Parsed<string>)
    ensures r.Success? <==> TitleOk(v)
    ensures r.Success? ==> r.value == v.s
    ensures v.Str? && Length(v.s) < 2 ==> r == Failure([Issue([Key("title")], TooSmall(2), Some(TitleMinMessage))])
    ensures v.Str? && Length(v.s) > 255 ==> r == Failure([Issue([Key("title")], TooBig(255), Some(TitleMaxMessage))])
    ensures ReportsAt(r, [Key("title")])
  {
    ParseString(v, [Key("title")], StringRule(2, Some(TitleMinMessage), Some(255), Some(TitleMaxMessage)))
  }

  /** `z.string().max(1000, ..)` for the description: required, but "" is allowed. */
  function ParseDescription(v: Value): (r: Parsed<string>)
    ensures r.Success? <==> DescriptionOk(v)
    ensures r.Success? ==> r.value == v.s
    ensures v.Str? && Length(v.s) > 1000 ==> r == Failure([Issue([Key("description")], TooBig(1000), Some(DescriptionMessage))])
    ensures ReportsAt(r, [Key("description")])
  {
    ParseString(v, [Key("description")], StringRule(0, None, Some(1000), Some(DescriptionMessage)))
  }

  /** `z.enum(statusValues, {error: "Status is required"})` */
  function ParseFormStatus(v: Value): (r: Parsed<Status>)
    ensures r.Success? <==> Appointments.StatusNameOk(v)
    ensures r.Success? ==> r.value.Name() == v.s
    ensures r.Failure? ==> r.error == [Issue([Key("status")], InvalidValue(StatusNames), Some(StatusMessage))]
    ensures ReportsAt(r, [Key("status")])
  {
    match ParseEnum(v, [Key("status")], StatusNames, Some(StatusMessage))
    case Success(s) => Success(StatusFromName(s).value)
    case Failure(e) => Failure(e)
  }

  /**
   * `appointmentFormSchema.safeParse(values)`: all field failures together;
   * the string-compared refinement once every field has passed.
   */
  function ValidateAppointmentForm(input: Value): (r: Parsed<FormValues>)
    ensures r.Success? <==> FormAccepts(input)
    ensures r.Success? ==>
      && r.value.patientId == Get(input.props, "patientId").s
      && r.value.title == Get(input.props, "title").s
      && r.value.description == Get(input.props, "description").s
      && r.value.date == Get(input.props, "date").s
      && r.value.startTime == Get(input.props, "startTime").s
      && r.value.endTime == Get(input.props, "endTime").s
      && r.value.status.Name() == Get(input.props, "status").s
    ensures input.Obj? && FieldsOk(input.props) && !FormAccepts(input) ==> r == Failure([EndAfterStartIssue])
    ensures r.Failure? ==> |r.error| > 0
  {
    if !input.Obj? then NotAnObject([])
    else
      var props := input.props;
      var patientId := ParseRequired(props, "patientId");
      var title := ParseTitle(Get(props, "title"));
      var description := ParseDescription(Get(props, "description"));
      var date := ParseRequired(props, "date");
      var startTime := ParseRequired(props, "startTime");
      var endTime := ParseRequired(props, "endTime");
      var status := ParseFormStatus(Get(props, "status"));
      if patientId.Success? && title.Success? && description.Success? && date.Success? && startTime.Success? && endTime.Success? && status.Success? then
        if StringLess(startTime.value, endTime.value) then
          Success(FormValues(patientId.value, title.value, description.value, date.value, startTime.value, endTime.value, status.value))
        else
          Failure([EndAfterStartIssue])
      else
        Failure(IssuesOf(patientId) + IssuesOf(title) + IssuesOf(description) + IssuesOf(date)
          + IssuesOf(startTime) + IssuesOf(endTime) + IssuesOf(status))
  }

  // ---------------------------------------------------------------------
  // Field properties
  // ---------------------------------------------------------------------

  /** The keys of the form schema. */
  const FormKeys: set<string> := {"patientId", "title", "description", "date", "startTime", "endTime", "status"}

  /** Whether the field named `key` passes its own rule. */
  predicate FieldOk(props: map<string, Value>, key: string) {
    var v := Get(props, key);
    if key == "title" then TitleOk(v)
    else if key == "description" then DescriptionOk(v)
    else if key == "status" then Appointments.StatusNameOk(v)
    else FilledIn(v)
  }

  /** A form rejected for a field reports the fields' issues in declaration order. */
  lemma FormFailure(props: map<string, Value>)
    ensures var r := ValidateAppointmentForm(Obj(props));
      !FieldsOk(props) ==> (r.Failure? && r.error ==
        IssuesOf(ParseRequired(props, "patientId")) + IssuesOf(ParseTitle(Get(props, "title")))
        + IssuesOf(ParseDescription(Get(props, "description"))) + IssuesOf(ParseRequired(props, "date"))
        + IssuesOf(ParseRequired(props, "startTime")) + IssuesOf(ParseRequired(props, "endTime"))
        + IssuesOf(ParseFormStatus(Get(props, "status"))))
  {
  }

  /** The form fields' issues, concatenated, flag a key exactly when that field fails. */
  lemma FormFieldIssuesFlag(props: map<string, Value>, key: string)
    requires key in FormKeys
    ensures var issues :=
        IssuesOf(ParseRequired(props, "patientId")) + IssuesOf(ParseTitle(Get(props, "title")))
        + IssuesOf(ParseDescription(Get(props, "description"))) + IssuesOf(ParseRequired(props, "date"))
        + IssuesOf(ParseRequired(props, "startTime")) + IssuesOf(ParseRequired(props, "endTime"))
        + IssuesOf(ParseFormStatus(Get(props, "status")));
      Flags(issues, [Key(key)]) <==> !FieldOk(props, key)
  {
    var patientId := ParseRequired(props, "patientId");
    var title := ParseTitle(Get(props, "title"));
    var description := ParseDescription(Get(props, "description"));
    var date := ParseRequired(props, "date");
    var startTime := ParseRequired(props, "startTime");
    var endTime := ParseRequired(props, "endTime");
    var status := ParseFormStatus(Get(props, "status"));
    var q := [Key(key)];
    FlagsOfParse(patientId, [Key("patientId")], q);
    FlagsOfParse(title, [Key("title")], q);
    FlagsOfParse(description, [Key("description")], q);
    FlagsOfParse(date, [Key("date")], q);
    FlagsOfParse(startTime, [Key("startTime")], q);
    FlagsOfParse(endTime, [Key("endTime")], q);
    FlagsOfParse(status, [Key("status")], q);
    var s2 := IssuesOf(patientId) + IssuesOf(title);
    var s3 := s2 + IssuesOf(description);
    var s4 := s3 + IssuesOf(date);
    var s5 := s4 + IssuesOf(startTime);
    var s6 := s5 + IssuesOf(endTime);
    FlagsAppend(IssuesOf(patientId), IssuesOf(title), q);
    FlagsAppend(s2, IssuesOf(description), q);
    FlagsAppend(s3, IssuesOf(date), q);
    FlagsAppend(s4, IssuesOf(startTime), q);
    FlagsAppend(s5, IssuesOf(endTime), q);
    FlagsAppend(s6, IssuesOf(status), q);
    if key == "patientId" {
      assert Flags(s6 + IssuesOf(status), q) <==> patientId.Failure?;
    } else if key == "title" {
      assert Flags(s6 + IssuesOf(status), q) <==> title.Failure?;
    } else if key == "description" {
      assert Flags(s6 + IssuesOf(status), q) <==> description.Failure?;
    } else if key == "date" {
      assert Flags(s6 + IssuesOf(status), q) <==> date.Failure?;
    } else if key == "startTime" {
      assert Flags(s6 + IssuesOf(status), q) <==> startTime.Failure?;
    } else if key == "endTime" {
      assert Flags(s6 + IssuesOf(status), q) <==> endTime.Failure?;
    } else {
      assert Flags(s6 + IssuesOf(status), q) <==> status.Failure?;
    }
  }

  /**
   * A form rejected for a field shows an error under every failing field
   * and under no other. Whether the refinement also reports then is left
   * open.
   */
  lemma FormIssues(props: map<string, Value>, key: string)
    requires key in FormKeys
    ensures var r := ValidateAppointmentForm(Obj(props));
      !FieldsOk(props) ==> r.Failure? && (Flags(r.error, [Key(key)]) <==> !FieldOk(props, key))
  {
    FormFailure(props);
    FormFieldIssuesFlag(props, key);
  }

  /** The four required text fields each refuse the empty string, with their own message. */
  lemma EmptyRequiredFieldRejected(props: map<string, Value>, key: string)
    requires key in {"patientId", "date", "startTime", "endTime"}
    requires Get(props, key) == Str("")
    ensures ValidateAppointmentForm(Obj(props)).Failure?
    ensures Issue([Key(key)], TooSmall(1), Some(RequiredMessage(key))) in ValidateAppointmentForm(Obj(props)).error
  {
    assert IssuesOf(ParseRequired(props, key)) == [Issue([Key(key)], TooSmall(1), Some(RequiredMessage(key)))];
  }

  /** With the rest of the form in order, a title is accepted exactly when it has 2 to 255 units. */
  lemma TitleRule(props: map<string, Value>)
    requires FieldsOkExcept(props, "title") && EndAfterStart(props)
    ensures ValidateAppointmentForm(Obj(props)).Success? <==> Get(props, "title").Str? && 2 <= Length(Get(props, "title").s) <= 255
  {
  }

  /**
   * A one-character title is reported as too short, with the form's message
   * (for a character outside the Basic Multilingual Plane `.length` is 2).
   */
  lemma OneCharacterTitleRejected(props: map<string, Value>, c: char)
    requires Get(props, "title") == Str([c]) && Bmp([c])
    ensures ValidateAppointmentForm(Obj(props)).Failure?
    ensures Issue([Key("title")], TooSmall(2), Some(TitleMinMessage)) in ValidateAppointmentForm(Obj(props)).error
  {
    LengthBounds([c]);
    assert ParseTitle(Get(props, "title")) == Failure([Issue([Key("title")], TooSmall(2), Some(TitleMinMessage))]);
  }

  /** The description is required as a string but may be empty. */
  lemma EmptyDescriptionAllowed(props: map<string, Value>)
    requires FieldsOkExcept(props, "description") && EndAfterStart(props)
    requires Get(props, "description") == Str("")
    ensures ValidateAppointmentForm(Obj(props)).Success?
    ensures ValidateAppointmentForm(Obj(props)).value.description == ""
  {
  }

  /** Any status but the three names, missing included, is reported as "Status is required". */
  lemma BadStatusMessage(props: map<string, Value>)
    requires !Appointments.StatusNameOk(Get(props, "status"))
    ensures ValidateAppointmentForm(Obj(props)).Failure?
    ensures Issue([Key("status")], InvalidValue(StatusNames), Some(StatusMessage)) in ValidateAppointmentForm(Obj(props)).error
  {
  }

  /** Equal start and end strings are refused; with the rest in order, by the refinement at `endTime`. */
  lemma EqualTimesRejected(props: map<string, Value>)
    requires Get(props, "startTime") == Get(props, "endTime")
    ensures ValidateAppointmentForm(Obj(props)).Failure?
    ensures FieldsOk(props) ==> ValidateAppointmentForm(Obj(props)) == Failure([EndAfterStartIssue])
  {
    if Get(props, "startTime").Str? {
      StringLessIrreflexive(Get(props, "startTime").s);
    }
  }

  /**
   * Swapping the times of an accepted form makes it fail: with every field
   * still in order, the sole issue is the refinement's, at `endTime`.
   */
  lemma SwappedTimesRejected(props: map<string, Value>)
    requires FormAccepts(Obj(props))
    ensures ValidateAppointmentForm(Obj(props["startTime" := Get(props, "endTime")]["endTime" := Get(props, "startTime")]))
      == Failure([EndAfterStartIssue])
  {
    var swapped := props["startTime" := Get(props, "endTime")]["endTime" := Get(props, "startTime")];
    assert Get(swapped, "startTime") == Get(props, "endTime");
    assert Get(swapped, "endTime") == Get(props, "startTime");
    assert forall k :: k != "startTime" && k != "endTime" ==> Get(swapped, k) == Get(props, k);
    assert FieldsOk(swapped);
    StringLessAsymmetric(Get(props, "startTime").s, Get(props, "endTime").s);
  }

  // ---------------------------------------------------------------------
  // Clock strings
  // ---------------------------------------------------------------------

  predicate IsDigit(c: char) { '0' <= c <= '9' }

  function DigitValue(c: char): nat
    requires IsDigit(c)
  {
    c as int - '0' as int
  }

  /** A zero-padded 24-hour "HH:MM" string, as a time input produces. */
  predicate IsClockTime(s: string) {
    && |s| == 5
    && IsDigit(s[0]) && IsDigit(s[1]) && s[2] == ':' && IsDigit(s[3]) && IsDigit(s[4])
    && 10 * DigitValue(s[0]) + DigitValue(s[1]) < 24
    && DigitValue(s[3]) < 6
  }

  /** Minutes since midnight of a clock string. */
  function Minutes(s: string): nat
    requires IsClockTime(s)
  {
    (10 * DigitValue(s[0]) + DigitValue(s[1])) * 60 + 10 * DigitValue(s[3]) + DigitValue(s[4])
  }

  /** Lexicographic order on five code units, spelled out position by position. */
  lemma UnitsLessOfFive(u: seq<int>, w: seq<int>)
    requires |u| == 5 && |w| == 5
    ensures UnitsLess(u, w) <==>
      || u[0] < w[0]
      || (u[0] == w[0] && u[1] < w[1])
      || (u[0] == w[0] && u[1] == w[1] && u[2] < w[2])
      || (u[0] == w[0] && u[1] == w[1] && u[2] == w[2] && u[3] < w[3])
      || (u[0] == w[0] && u[1] == w[1] && u[2] == w[2] && u[3] == w[3] && u[4] < w[4])
  {
    UnitsLessStep(u, w);
    UnitsLessStep(u[1..], w[1..]);
    UnitsLessStep(u[2..], w[2..]);
    UnitsLessStep(u[3..], w[3..]);
    UnitsLessStep(u[4..], w[4..]);
    assert u[1..][1..] == u[2..] && w[1..][1..] == w[2..];
    assert u[2..][1..] == u[3..] && w[2..][1..] == w[3..];
    assert u[3..][1..] == u[4..] && w[3..][1..] == w[4..];
    assert u[4..][1..] == [] && w[4..][1..] == [];
  }

  /** One step of the lexicographic comparison. */
  lemma UnitsLessStep(u: seq<int>, w: seq<int>)
    requires |u| > 0 && |w| > 0
    ensures UnitsLess(u, w) == if u[0] != w[0] then u[0] < w[0] else UnitsLess(u[1..], w[1..])
  {
  }

  /**
   * On zero-padded clock strings, JavaScript's string order is clock order:
   * the refinement's string comparison is a true time comparison.
   */
  lemma ClockStringOrder(a: string, b: string)
    requires IsClockTime(a) && IsClockTime(b)
    ensures StringLess(a, b) <==> Minutes(a) < Minutes(b)
  {
    assert Bmp(a) && Bmp(b);
    Utf16OfBmp(a);
    Utf16OfBmp(b);
    UnitsLessOfFive(Utf16(a), Utf16(b));
  }

  /** The refinement on clock strings: the form accepts the times exactly when the end is later in the day. */
  lemma ClockTimesRule(props: map<string, Value>)
    requires FieldsOk(props)
    requires IsClockTime(Get(props, "startTime").s) && IsClockTime(Get(props, "endTime").s)
    ensures ValidateAppointmentForm(Obj(props)).Success? <==> Minutes(Get(props, "startTime").s) < Minutes(Get(props, "endTime").s)
  {
    ClockStringOrder(Get(props, "startTime").s, Get(props, "endTime").s);
  }

  /** Without zero padding the order breaks: "10:00" sorts before "9:00". */
  lemma UnpaddedHourMisorders()
    ensures StringLess("10:00", "9:00")
    ensures !StringLess("9:00", "10:00")
  {
    assert Bmp("10:00") && Bmp("9:00");
    Utf16OfBmp("10:00");
    Utf16OfBmp("9:00");
    var u := Utf16("10:00");
    var w := Utf16("9:00");
    assert u[0] == '1' as int && w[0] == '9' as int;
  }

  // ---------------------------------------------------------------------
  // The form's starting state and its submission
  // ---------------------------------------------------------------------

  /** The values a new-appointment form starts from, on the day `date`. */
  function DefaultValues(date: string): Value {
    Obj(map[
      "patientId" := Str(""),
      "title" := Str(""),
      "description" := Str(""),
      "date" := Str(date),
      "startTime" := Str("09:00"),
      "endTime" := Str("10:00"),
      "status" := Str("scheduled")])
  }

  /** The empty patient and title of the starting values fail, each with its message. */
  lemma DefaultPatientAndTitleFail(date: string)
    ensures var props := DefaultValues(date).props;
      && ParseRequired(props, "patientId") == Failure([Issue([Key("patientId")], TooSmall(1), Some(PatientMessage))])
      && ParseTitle(Get(props, "title")) == Failure([Issue([Key("title")], TooSmall(2), Some(TitleMinMessage))])
  {
    var props := DefaultValues(date).props;
    assert Get(props, "patientId") == Str("") && Get(props, "title") == Str("");
  }

  /** The date and the two starting times are filled in. */
  lemma DefaultDateAndTimesPass(date: string)
    requires date != ""
    ensures var props := DefaultValues(date).props;
      && ParseRequired(props, "date").Success?
      && ParseRequired(props, "startTime").Success?
      && ParseRequired(props, "endTime").Success?
  {
    var props := DefaultValues(date).props;
    assert Get(props, "date") == Str(date);
    assert Get(props, "startTime") == Str("09:00") && Get(props, "endTime") == Str("10:00");
    LengthBounds(date);
    LengthBounds("09:00");
    LengthBounds("10:00");
  }

  /** The empty description and the "scheduled" status pass. */
  lemma DefaultDescriptionAndStatusPass(date: string)
    ensures var props := DefaultValues(date).props;
      && ParseDescription(Get(props, "description")).Success?
      && ParseFormStatus(Get(props, "status")).Success?
  {
    var props := DefaultValues(date).props;
    assert Get(props, "description") == Str("") && Get(props, "status") == Str("scheduled");
  }

  /** Each field of the starting values, parsed on its own. */
  lemma DefaultFieldResults(date: string)
    requires date != ""
    ensures var props := DefaultValues(date).props;
      && ParseRequired(props, "patientId") == Failure([Issue([Key("patientId")], TooSmall(1), Some(PatientMessage))])
      && ParseTitle(Get(props, "title")) == Failure([Issue([Key("title")], TooSmall(2), Some(TitleMinMessage))])
      && ParseDescription(Get(props, "description")).Success?
      && ParseRequired(props, "date").Success?
      && ParseRequired(props, "startTime").Success?
      && ParseRequired(props, "endTime").Success?
      && ParseFormStatus(Get(props, "status")).Success?
  {
    DefaultPatientAndTitleFail(date);
    DefaultDateAndTimesPass(date);
    DefaultDescriptionAndStatusPass(date);
  }

  /**
   * The starting values satisfy the time and status rules ("09:00" is before
   * "10:00"), but the empty patient and title are reported, and nothing else.
   */
  lemma DefaultValuesReport(date: string)
    requires date != ""
    ensures IsClockTime("09:00") && IsClockTime("10:00") && StringLess("09:00", "10:00")
    ensures ValidateAppointmentForm(DefaultValues(date)) == Failure([
      Issue([Key("patientId")], TooSmall(1), Some(PatientMessage)),
      Issue([Key("title")], TooSmall(2), Some(TitleMinMessage))])
  {
    assert IsClockTime("09:00") && IsClockTime("10:00");
    ClockStringOrder("09:00", "10:00");
    DefaultFieldResults(date);
    var props := DefaultValues(date).props;
    var patientId := ParseRequired(props, "patientId");
    var title := ParseTitle(Get(props, "title"));
    var all := IssuesOf(patientId) + IssuesOf(title) + IssuesOf(ParseDescription(Get(props, "description")))
      + IssuesOf(ParseRequired(props, "date")) + IssuesOf(ParseRequired(props, "startTime"))
      + IssuesOf(ParseRequired(props, "endTime")) + IssuesOf(ParseFormStatus(Get(props, "status")));
    assert all == IssuesOf(patientId) + IssuesOf(title) + [] + [] + [] + [] + [];
    assert IssuesOf(patientId) == [Issue([Key("patientId")], TooSmall(1), Some(PatientMessage))];
    assert IssuesOf(title) == [Issue([Key("title")], TooSmall(2), Some(TitleMinMessage))];
    assert all == [Issue([Key("patientId")], TooSmall(1), Some(PatientMessage)), Issue([Key("title")], TooSmall(2), Some(TitleMinMessage))];
    assert ValidateAppointmentForm(DefaultValues(date)) == Failure(all);
  }

  /**
   * The create request the form submits: an empty description is sent as
   * undefined, and the two times are what the date/time combination yields
   * (passed in, since that helper is not part of this model).
   */
  function Submission(f: FormValues, startTime: Value, endTime: Value): Value {
    Obj(map[
      "patientId" := Str(f.patientId),
      "title" := Str(f.title),
      "description" := (if f.description == "" then Undefined else Str(f.description)),
      "startTime" := startTime,
      "endTime" := endTime,
      "status" := Str(f.status.Name())])
  }

  /**
   * The form is at least as strict as the server on title, description and
   * status, so a form the schema accepts never fails the server on those.
   */
  lemma FormFieldsPassServer(input: Value, startTime: Value, endTime: Value)
    requires ValidateAppointmentForm(input).Success?
    ensures var f := ValidateAppointmentForm(input).value;
      var props := Submission(f, startTime, endTime).props;
      && Appointments.TitleOk(Get(props, "title"))
      && Appointments.DescriptionOk(Get(props, "description"))
      && Appointments.StatusNameOk(Get(props, "status"))
  {
    var f := ValidateAppointmentForm(input).value;
    var props := Submission(f, startTime, endTime).props;
    assert TitleOk(Get(input.props, "title")) && DescriptionOk(Get(input.props, "description"));
    assert Get(props, "title") == Str(f.title) && Length(f.title) >= 2;
    assert Length(f.description) <= 1000;
    StatusNameRoundTrip(f.status);
    assert Get(props, "status") == Str(f.status.Name());
  }

  /**
   * Once the patient id is a UUID and the combined times are ordered, the
   * server accepts what an accepted form submits and keeps the form's values.
   */
  lemma FormAcceptanceCarriesToServer(rt: Runtime, input: Value, startTime: Value, endTime: Value)
    requires ValidateAppointmentForm(input).Success?
    requires rt.isUuid(ValidateAppointmentForm(input).value.patientId)
    requires NewDate(rt, startTime).Some? && NewDate(rt, endTime).Some?
    requires NewDate(rt, startTime).value < NewDate(rt, endTime).value
    ensures var f := ValidateAppointmentForm(input).value;
      Appointments.ValidateCreateAppointment(rt, Submission(f, startTime, endTime)) ==
        Success(Appointments.NewAppointment(
          f.patientId, f.title, if f.description == "" then Absent else Given(f.description),
          NewDate(rt, startTime).value, NewDate(rt, endTime).value, f.status))
  {
    var f := ValidateAppointmentForm(input).value;
    var submission := Submission(f, startTime, endTime);
    var props := submission.props;
    FormFieldsPassServer(input, startTime, endTime);
    assert Get(props, "patientId") == Str(f.patientId);
    assert Get(props, "startTime") == startTime && Get(props, "endTime") == endTime;
    assert Appointments.CreateAccepts(rt, submission);
    var c := Appointments.ValidateCreateAppointment(rt, submission);
    assert c.value.description == (if f.description == "" then Absent else Given(f.description));
    StatusNameRoundTrip(f.status);
    StatusNameRoundTrip(c.value.status);
    assert c.value.status == f.status;
  }
}

=== FILE: appointments.dfy ===
/**
 * The server's appointment request validators: `createAppointmentSchema`
 * with its end-after-start refinement, and `updateAppointmentSchema`, whose
 * refinement only applies when both times are supplied.
 */
module Appointments {
  import opened Wrappers
  import opened Js
  import opened Zod
  import opened Domain

  /** An appointment as the create schema outputs it; times are epoch milliseconds. */
  datatype NewAppointment = NewAppointment(
    patientId: string,
    title: string,
    description: Field<string>,
    startTime: int,
    endTime: int,
    status: Status)

  /** An appointment update as the update schema outputs it. It has no patient field. */
  datatype AppointmentPatch = AppointmentPatch(
    title: Field<string>,
    description: Field<string>,
    startTime: Field<int>,
    endTime: Field<int>,
    status: Field<Status>)

  const PatientIdMessage: string := "Invalid patient ID"
  const TitleMessage: string := "Title is required"
  const EndAfterStartMessage: string := "End time must be after start time"

  /** The single issue the end-after-start refinement raises. */
  const EndAfterStartIssue: Issue := Issue([Key("endTime")], CustomCheck, Some(EndAfterStartMessage))

  // ---------------------------------------------------------------------
  // The rules, read directly off the schemas
  // ---------------------------------------------------------------------

  predicate PatientIdOk(rt: Runtime, v: Value) { v.Str? && rt.isUuid(v.s) }
  predicate TitleOk(v: Value) { v.Str? && 1 <= Length(v.s) <= 255 }
  predicate DescriptionOk(v: Value) { IsNullish(v) || (v.Str? && Length(v.s) <= 1000) }
  predicate StatusNameOk(v: Value) { v.Str? && v.s in StatusNames }

  /** The times an input's `startTime` and `endTime` coerce to. */
  function Start(rt: Runtime, props: map<string, Value>): Option<int> { NewDate(rt, Get(props, "startTime")) }
  function End(rt: Runtime, props: map<string, Value>): Option<int> { NewDate(rt, Get(props, "endTime")) }

  /** Every field of a create input passes its own rule. */
  predicate CreateFieldsOk(rt: Runtime, props: map<string, Value>) {
    && PatientIdOk(rt, Get(props, "patientId"))
    && TitleOk(Get(props, "title"))
    && DescriptionOk(Get(props, "description"))
    && Start(rt, props).Some?
    && End(rt, props).Some?
    && (Get(props, "status").Undefined? || StatusNameOk(Get(props, "status")))
  }

  predicate CreateAccepts(rt: Runtime, input: Value) {
    input.Obj? && CreateFieldsOk(rt, input.props) && Start(rt, input.props).value < End(rt, input.props).value
  }

  /** Every field of an update input passes its own rule; null and absence pass everywhere. */
  predicate UpdateFieldsOk(rt: Runtime, props: map<string, Value>) {
    && (IsNullish(Get(props, "title")) || TitleOk(Get(props, "title")))
    && DescriptionOk(Get(props, "description"))
    && (IsNullish(Get(props, "startTime")) || Start(rt, props).Some?)
    && (IsNullish(Get(props, "endTime")) || End(rt, props).Some?)
    && (IsNullish(Get(props, "status")) || StatusNameOk(Get(props, "status")))
  }

  /** The value a nullish status field denotes. */
  function StatusField(v: Value): Field<Status> {
    match v
    case Null => NullValue
    case Str(s) => (match StatusFromName(s) case Some(st) => Given(st) case None => Absent)
    case _ => Absent
  }

  /**
   * What an update input denotes: each declared field read off the input,
   * absent when the key is missing and null when it is null, any other key
   * dropped.
   */
  function DenotedPatch(rt: Runtime, props: map<string, Value>): AppointmentPatch {
    AppointmentPatch(
      StringField(Get(props, "title")),
      StringField(Get(props, "description")),
      DateField(rt, Get(props, "startTime")),
      DateField(rt, Get(props, "endTime")),
      StatusField(Get(props, "status")))
  }

  /** Both times are supplied, neither absent nor null. */
  predicate BothTimesGiven(props: map<string, Value>) {
    !IsNullish(Get(props, "startTime")) && !IsNullish(Get(props, "endTime"))
  }

  predicate UpdateAccepts(rt: Runtime, input: Value) {
    && input.Obj?
    && UpdateFieldsOk(rt, input.props)
    && (BothTimesGiven(input.props) ==> Start(rt, input.props).value < End(rt, input.props).value)
  }

  /** The keys the update schema declares; every other key is stripped. */
  const UpdateKeys: set<string> := {"title", "description", "startTime", "endTime", "status"}

  // ---------------------------------------------------------------------
  // Field parsers
  // ---------------------------------------------------------------------

  /** `title: z.string().min(1, "Title is required").max(255)` */
  function ParseTitle(v: Value): (r: Parsed<string>)
    ensures r.Success? <==> TitleOk(v)
    ensures r.Success? ==> r.value == v.s
    ensures ReportsAt(r, [Key("title")])
    ensures v == Str("") ==> r == Failure([Issue([Key("title")], TooSmall(1), Some(TitleMessage))])
  {
    LengthBounds("");
    ParseString(v, [Key("title")], StringRule(1, Some(TitleMessage), Some(255), None))
  }

  /**
   * `title: z.string().min(1).max(255).nullish()` in the update schema: the
   * same bounds as create, but no custom message, so a too-short title gets
   * the library's default wording.
   */
  function ParseUpdateTitle(v: Value): (r: Parsed<Field<string>>)
    ensures r.Success? <==> IsNullish(v) || TitleOk(v)
    ensures r.Success? ==> r.value == StringField(v)
    ensures ReportsAt(r, [Key("title")])
    ensures v == Str("") ==> r == Failure([Issue([Key("title")], TooSmall(1), None)])
  {
    LengthBounds("");
    Nullish(v, ParseString(v, [Key("title")], StringRule(1, None, Some(255), None)))
  }

  /** `description: z.string().max(1000).nullish()` */
  function ParseDescription(v: Value): (r: Parsed<Field<string>>)
    ensures r.Success? <==> DescriptionOk(v)
    ensures r.Success? ==> r.value == StringField(v)
    ensures ReportsAt(r, [Key("description")])
  {
    Nullish(v, ParseString(v, [Key("description")], StringRule(0, None, Some(1000), None)))
  }

  /** `z.enum(["scheduled", "completed", "cancelled"])` as a status. */
  function ParseStatus(v: Value): (r: Parsed<Status>)
    ensures r.Success? <==> StatusNameOk(v)
    ensures r.Success? ==> r.value.Name() == v.s
    ensures r.Failure? ==> r.error == [Issue([Key("status")], InvalidValue(StatusNames), None)]
    ensures ReportsAt(r, [Key("status")])
  {
    match ParseEnum(v, [Key("status")], StatusNames, None)
    case Success(s) => Success(StatusFromName(s).value)
    case Failure(e) => Failure(e)
  }

  /** `status: z.enum(..).default("scheduled")`: an undefined status becomes "scheduled" without further checks. */
  function ParseStatusWithDefault(v: Value): (r: Parsed<Status>)
    ensures v.Undefined? ==> r == Success(Scheduled)
    ensures !v.Undefined? ==> r == ParseStatus(v)
    ensures ReportsAt(r, [Key("status")])
  {
    if v.Undefined? then Success(Scheduled) else ParseStatus(v)
  }

  // ---------------------------------------------------------------------
  // The schemas
  // ---------------------------------------------------------------------

  /**
   * `createAppointmentSchema.safeParse(input)`. All field failures are
   * reported together; the end-after-start refinement is evaluated once
   * every field has passed, and reports against `endTime`.
   */
  function ValidateCreateAppointment(rt: Runtime, input: Value): (r: Parsed<NewAppointment>)
    ensures r.Success? <==> CreateAccepts(rt, input)
    ensures r.Success? ==> r.value.startTime < r.value.endTime
    ensures r.Success? ==>
      && r.value.patientId == Get(input.props, "patientId").s
      && r.value.title == Get(input.props, "title").s
      && r.value.description == StringField(Get(input.props, "description"))
      && r.value.startTime == Start(rt, input.props).value
      && r.value.endTime == End(rt, input.props).value
    ensures r.Success? ==> r.value.status.Name() == (if Get(input.props, "status").Undefined? then "scheduled" else Get(input.props, "status").s)
    ensures input.Obj? && CreateFieldsOk(rt, input.props) && !CreateAccepts(rt, input) ==> r == Failure([EndAfterStartIssue])
    ensures r.Failure? ==> |r.error| > 0
  {
    if !input.Obj? then NotAnObject([])
    else
      var props := input.props;
      var patientId := ParseFormat(Get(props, "patientId"), [Key("patientId")], "uuid", rt.isUuid, Some(PatientIdMessage));
      var title := ParseTitle(Get(props, "title"));
      var description := ParseDescription(Get(props, "description"));
      var startTime := ParseDate(rt, Get(props, "startTime"), [Key("startTime")]);
      var endTime := ParseDate(rt, Get(props, "endTime"), [Key("endTime")]);
      var status := ParseStatusWithDefault(Get(props, "status"));
      if patientId.Success? && title.Success? && description.Success? && startTime.Success? && endTime.Success? && status.Success? then
        if endTime.value > startTime.value then
          Success(NewAppointment(patientId.value, title.value, description.value, startTime.value, endTime.value, status.value))
        else
          Failure([EndAfterStartIssue])
      else
        Failure(IssuesOf(patientId) + IssuesOf(title) + IssuesOf(description) + IssuesOf(startTime) + IssuesOf(endTime) + IssuesOf(status))
  }

  /**
   * `updateAppointmentSchema.safeParse(input)`. Every field is nullish; the
   * refinement compares the times only when both are supplied (a Date is
   * always truthy), so a single time is never checked against anything.
   */
  function ValidateUpdateAppointment(rt: Runtime, input: Value): (r: Parsed<AppointmentPatch>)
    ensures r.Success? <==> UpdateAccepts(rt, input)
    ensures r.Success? ==> r.value == DenotedPatch(rt, input.props)
    ensures r.Success? ==>
      && (r.value.startTime.Given? <==> !IsNullish(Get(input.props, "startTime")))
      && (r.value.endTime.Given? <==> !IsNullish(Get(input.props, "endTime")))
      && (r.value.startTime.Given? ==> r.value.startTime.value == Start(rt, input.props).value)
      && (r.value.endTime.Given? ==> r.value.endTime.value == End(rt, input.props).value)
      && (r.value.status.Given? <==> !IsNullish(Get(input.props, "status")))
      && (r.value.status.Given? ==> r.value.status.value.Name() == Get(input.props, "status").s)
    ensures r.Success? && r.value.startTime.Given? && r.value.endTime.Given? ==> r.value.startTime.value < r.value.endTime.value
    ensures input.Obj? && UpdateFieldsOk(rt, input.props) && !UpdateAccepts(rt, input) ==> r == Failure([EndAfterStartIssue])
    ensures r.Failure? ==> |r.error| > 0
  {
    if !input.Obj? then NotAnObject([])
    else
      var props := input.props;
      var title := ParseUpdateTitle(Get(props, "title"));
      var description := ParseDescription(Get(props, "description"));
      var startTime := Nullish(Get(props, "startTime"), ParseDate(rt, Get(props, "startTime"), [Key("startTime")]));
      var endTime := Nullish(Get(props, "endTime"), ParseDate(rt, Get(props, "endTime"), [Key("endTime")]));
      var status := Nullish(Get(props, "status"), ParseStatus(Get(props, "status")));
      if title.Success? && description.Success? && startTime.Success? && endTime.Success? && status.Success? then
        if startTime.value.Given? && endTime.value.Given? && !(endTime.value.value > startTime.value.value) then
          Failure([EndAfterStartIssue])
        else
          Success(AppointmentPatch(title.value, description.value, startTime.value, endTime.value, status.value))
      else
        Failure(IssuesOf(title) + IssuesOf(description) + IssuesOf(startTime) + IssuesOf(endTime) + IssuesOf(status))
  }

  // ---------------------------------------------------------------------
  // Properties
  // ---------------------------------------------------------------------

  /** The keys of the create schema. */
  const CreateKeys: set<string> := {"patientId", "title", "description", "startTime", "endTime", "status"}

  /** Whether the field named `key` passes its rule in the create schema. */
  predicate CreateFieldOk(rt: Runtime, props: map<string, Value>, key: string) {
    if key == "patientId" then PatientIdOk(rt, Get(props, key))
    else if key == "title" then TitleOk(Get(props, key))
    else if key == "description" then DescriptionOk(Get(props, key))
    else if key == "startTime" then Start(rt, props).Some?
    else if key == "endTime" then End(rt, props).Some?
    else Get(props, "status").Undefined? || StatusNameOk(Get(props, "status"))
  }

  /** Whether the field named `key` passes its rule in the update schema. */
  predicate UpdateFieldOk(rt: Runtime, props: map<string, Value>, key: string) {
    if key == "title" then IsNullish(Get(props, key)) || TitleOk(Get(props, key))
    else if key == "description" then DescriptionOk(Get(props, key))
    else if key == "startTime" then IsNullish(Get(props, key)) || Start(rt, props).Some?
    else if key == "endTime" then IsNullish(Get(props, key)) || End(rt, props).Some?
    else IsNullish(Get(props, "status")) || StatusNameOk(Get(props, "status"))
  }

  /** A create rejected for a field reports the fields' issues in declaration order. */
  lemma CreateAppointmentFailure(rt: Runtime, props: map<string, Value>)
    ensures var r := ValidateCreateAppointment(rt, Obj(props));
      !CreateFieldsOk(rt, props) ==> (r.Failure? && r.error ==
        IssuesOf(ParseFormat(Get(props, "patientId"), [Key("patientId")], "uuid", rt.isUuid, Some(PatientIdMessage)))
        + IssuesOf(ParseTitle(Get(props, "title"))) + IssuesOf(ParseDescription(Get(props, "description")))
        + IssuesOf(ParseDate(rt, Get(props, "startTime"), [Key("startTime")]))
        + IssuesOf(ParseDate(rt, Get(props, "endTime"), [Key("endTime")]))
        + IssuesOf(ParseStatusWithDefault(Get(props, "status"))))
  {
  }

  /**
   * A create rejected for a field names every failing field and no other:
   * there is an issue at a field's key exactly when that field breaks its
   * rule. Whether the refinement also reports then is left open.
   */
  lemma CreateAppointmentIssues(rt: Runtime, props: map<string, Value>, key: string)
    requires key in CreateKeys
    ensures var r := ValidateCreateAppointment(rt, Obj(props));
      !CreateFieldsOk(rt, props) ==> r.Failure? && (Flags(r.error, [Key(key)]) <==> !CreateFieldOk(rt, props, key))
  {
    var patientId := ParseFormat(Get(props, "patientId"), [Key("patientId")], "uuid", rt.isUuid, Some(PatientIdMessage));
    var title := ParseTitle(Get(props, "title"));
    var description := ParseDescription(Get(props, "description"));
    var startTime := ParseDate(rt, Get(props, "startTime"), [Key("startTime")]);
    var endTime := ParseDate(rt, Get(props, "endTime"), [Key("endTime")]);
    var status := ParseStatusWithDefault(Get(props, "status"));
    var q := [Key(key)];
    FlagsOfParse(patientId, [Key("patientId")], q);
    FlagsOfParse(title, [Key("title")], q);
    FlagsOfParse(description, [Key("description")], q);
    FlagsOfParse(startTime, [Key("startTime")], q);
    FlagsOfParse(endTime, [Key("endTime")], q);
    FlagsOfParse(status, [Key("status")], q);
    var s2 := IssuesOf(patientId) + IssuesOf(title);
    var s3 := s2 + IssuesOf(description);
    var s4 := s3 + IssuesOf(startTime);
    var s5 := s4 + IssuesOf(endTime);
    FlagsAppend(IssuesOf(patientId), IssuesOf(title), q);
    FlagsAppend(s2, IssuesOf(description), q);
    FlagsAppend(s3, IssuesOf(startTime), q);
    FlagsAppend(s4, IssuesOf(endTime), q);
    FlagsAppend(s5, IssuesOf(status), q);
    CreateAppointmentFailure(rt, props);
  }

  /** An update rejected for a field reports the fields' issues in declaration order. */
  lemma UpdateAppointmentFailure(rt: Runtime, props: map<string, Value>)
    ensures var r := ValidateUpdateAppointment(rt, Obj(props));
      !UpdateFieldsOk(rt, props) ==> (r.Failure? && r.error ==
        IssuesOf(ParseUpdateTitle(Get(props, "title"))) + IssuesOf(ParseDescription(Get(props, "description")))
        + IssuesOf(Nullish(Get(props, "startTime"), ParseDate(rt, Get(props, "startTime"), [Key("startTime")])))
        + IssuesOf(Nullish(Get(props, "endTime"), ParseDate(rt, Get(props, "endTime"), [Key("endTime")])))
        + IssuesOf(Nullish(Get(props, "status"), ParseStatus(Get(props, "status")))))
  {
  }

  /** The update fields' issues, concatenated, flag a key exactly when that field fails. */
  lemma UpdateFieldIssuesFlag(rt: Runtime, props: map<string, Value>, key: string)
    requires key in UpdateKeys
    ensures var issues :=
        IssuesOf(ParseUpdateTitle(Get(props, "title"))) + IssuesOf(ParseDescription(Get(props, "description")))
        + IssuesOf(Nullish(Get(props, "startTime"), ParseDate(rt, Get(props, "startTime"), [Key("startTime")])))
        + IssuesOf(Nullish(Get(props, "endTime"), ParseDate(rt, Get(props, "endTime"), [Key("endTime")])))
        + IssuesOf(Nullish(Get(props, "status"), ParseStatus(Get(props, "status"))));
      Flags(issues, [Key(key)]) <==> !UpdateFieldOk(rt, props, key)
  {
    var title := ParseUpdateTitle(Get(props, "title"));
    var description := ParseDescription(Get(props, "description"));
    var startTime := Nullish(Get(props, "startTime"), ParseDate(rt, Get(props, "startTime"), [Key("startTime")]));
    var endTime := Nullish(Get(props, "endTime"), ParseDate(rt, Get(props, "endTime"), [Key("endTime")]));
    var status := Nullish(Get(props, "status"), ParseStatus(Get(props, "status")));
    var q := [Key(key)];
    FlagsOfParse(title, [Key("title")], q);
    FlagsOfParse(description, [Key("description")], q);
    FlagsOfParse(startTime, [Key("startTime")], q);
    FlagsOfParse(endTime, [Key("endTime")], q);
    FlagsOfParse(status, [Key("status")], q);
    var s2 := IssuesOf(title) + IssuesOf(description);
    var s3 := s2 + IssuesOf(startTime);
    var s4 := s3 + IssuesOf(endTime);
    FlagsAppend(IssuesOf(title), IssuesOf(description), q);
    FlagsAppend(s2, IssuesOf(startTime), q);
    FlagsAppend(s3, IssuesOf(endTime), q);
    FlagsAppend(s4, IssuesOf(status), q);
    if key == "title" {
      assert Flags(s4 + IssuesOf(status), q) <==> title.Failure?;
    } else if key == "description" {
      assert Flags(s4 + IssuesOf(status), q) <==> description.Failure?;
    } else if key == "startTime" {
      assert Flags(s4 + IssuesOf(status), q) <==> startTime.Failure?;
    } else if key == "endTime" {
      assert Flags(s4 + IssuesOf(status), q) <==> endTime.Failure?;
    } else {
      assert Flags(s4 + IssuesOf(status), q) <==> status.Failure?;
    }
  }

  /**
   * An update rejected for a field names every failing field and no other;
   * null and absence never count as failing.
   */
  lemma UpdateAppointmentIssues(rt: Runtime, props: map<string, Value>, key: string)
    requires key in UpdateKeys
    ensures var r := ValidateUpdateAppointment(rt, Obj(props));
      !UpdateFieldsOk(rt, props) ==> r.Failure? && (Flags(r.error, [Key(key)]) <==> !UpdateFieldOk(rt, props, key))
  {
    UpdateAppointmentFailure(rt, props);
    UpdateFieldIssuesFlag(rt, props, key);
  }

  /**
   * Whenever both times coerce and the end is not after the start, create
   * rejects; with every other field in order the sole issue is the
   * refinement's, at `endTime`.
   */
  lemma CreateRejectsEndNotAfterStart(rt: Runtime, props: map<string, Value>)
    requires Start(rt, props).Some? && End(rt, props).Some?
    requires End(rt, props).value <= Start(rt, props).value
    ensures ValidateCreateAppointment(rt, Obj(props)).Failure?
    ensures CreateFieldsOk(rt, props) ==> ValidateCreateAppointment(rt, Obj(props)) == Failure([EndAfterStartIssue])
  {
  }

  /** Equal start and end times are refused: the order is strict. */
  lemma CreateRejectsEqualTimes(rt: Runtime, props: map<string, Value>)
    requires Get(props, "startTime") == Get(props, "endTime")
    ensures ValidateCreateAppointment(rt, Obj(props)).Failure?
  {
  }

  /** A status, if supplied, must name one of the three statuses; null is not a default. */
  lemma CreateStatusRule(rt: Runtime, props: map<string, Value>)
    requires CreateFieldsOk(rt, props - {"status"}) && Start(rt, props).value < End(rt, props).value
    ensures ValidateCreateAppointment(rt, Obj(props)).Success? <==>
      Get(props, "status").Undefined? || Get(props, "status") in {Str("scheduled"), Str("completed"), Str("cancelled")}
    ensures Get(props, "status").Undefined? ==> ValidateCreateAppointment(rt, Obj(props)).value.status == Scheduled
  {
    assert forall key :: key != "status" ==> Get(props - {"status"}, key) == Get(props, key);
  }

  /**
   * `z.coerce.date()` turns a null time into the epoch (`new Date(null)`),
   * so create accepts `startTime: null` as 1970-01-01T00:00:00Z.
   */
  lemma CreateCoercesNullTimeToEpoch(rt: Runtime, props: map<string, Value>)
    requires Get(props, "startTime") == Null
    ensures Start(rt, props) == Some(0)
    ensures CreateFieldsOk(rt, props) && 0 < End(rt, props).value ==> ValidateCreateAppointment(rt, Obj(props)).Success?
    ensures ValidateCreateAppointment(rt, Obj(props)).Success? ==> ValidateCreateAppointment(rt, Obj(props)).value.startTime == 0
  {
  }

  /** An empty title is refused by create with "Title is required". */
  lemma CreateEmptyTitleMessage(rt: Runtime, props: map<string, Value>)
    requires Get(props, "title") == Str("")
    ensures ValidateCreateAppointment(rt, Obj(props)).Failure?
    ensures Issue([Key("title")], TooSmall(1), Some(TitleMessage)) in ValidateCreateAppointment(rt, Obj(props)).error
  {
  }

  /**
   * Update keeps a missing time apart from a null one: a missing key leaves
   * the column unchanged, while an explicit null asks to clear it.
   */
  lemma UpdateKeepsAbsentAndNullApart(rt: Runtime)
    ensures ValidateUpdateAppointment(rt, Obj(map[])) ==
      Success(AppointmentPatch(Absent, Absent, Absent, Absent, Absent))
    ensures ValidateUpdateAppointment(rt, Obj(map["startTime" := Null, "status" := Null])) ==
      Success(AppointmentPatch(Absent, Absent, NullValue, Absent, NullValue))
  {
    var cleared := map["startTime" := Null, "status" := Null];
    assert Get(cleared, "startTime") == Null && Get(cleared, "status") == Null;
    assert Get(cleared, "title") == Undefined && Get(cleared, "description") == Undefined;
    assert Get(cleared, "endTime") == Undefined;
  }

  /**
   * The update title has no custom message: `{title: ""}` is refused with the
   * single minimum-length issue at `title`, in the library's default wording.
   */
  lemma UpdateEmptyTitleIssue(rt: Runtime)
    ensures ValidateUpdateAppointment(rt, Obj(map["title" := Str("")])) ==
      Failure([Issue([Key("title")], TooSmall(1), None)])
  {
    var props := map["title" := Str("")];
    assert Get(props, "title") == Str("");
    assert Get(props, "description") == Undefined;
    assert Get(props, "startTime") == Undefined;
    assert Get(props, "endTime") == Undefined;
    assert Get(props, "status") == Undefined;
    var title := ParseUpdateTitle(Get(props, "title"));
    var description := ParseDescription(Get(props, "description"));
    var startTime := Nullish(Get(props, "startTime"), ParseDate(rt, Get(props, "startTime"), [Key("startTime")]));
    var endTime := Nullish(Get(props, "endTime"), ParseDate(rt, Get(props, "endTime"), [Key("endTime")]));
    var status := Nullish(Get(props, "status"), ParseStatus(Get(props, "status")));
    assert title == Failure([Issue([Key("title")], TooSmall(1), None)]);
    assert description.Success? && startTime.Success? && endTime.Success? && status.Success?;
    assert IssuesOf(title) + IssuesOf(description) + IssuesOf(startTime) + IssuesOf(endTime) + IssuesOf(status)
      == [Issue([Key("title")], TooSmall(1), None)];
  }

  /** With only one time supplied (the other absent or null), the update refinement always passes. */
  lemma UpdateSkipsOrderCheckForOneTime(rt: Runtime, props: map<string, Value>)
    requires UpdateFieldsOk(rt, props)
    requires IsNullish(Get(props, "startTime")) || IsNullish(Get(props, "endTime"))
    ensures ValidateUpdateAppointment(rt, Obj(props)).Success?
  {
  }

  /** With both times supplied and the end not after the start, update refuses at `endTime`. */
  lemma UpdateRejectsEndNotAfterStart(rt: Runtime, props: map<string, Value>)
    requires UpdateFieldsOk(rt, props) && BothTimesGiven(props)
    requires End(rt, props).value <= Start(rt, props).value
    ensures ValidateUpdateAppointment(rt, Obj(props)) == Failure([EndAfterStartIssue])
  {
  }

  /** The result of an update depends on the five declared keys alone. */
  lemma UpdateReadsDeclaredKeysOnly(rt: Runtime, p: map<string, Value>, q: map<string, Value>)
    requires forall key :: key in UpdateKeys ==> Get(p, key) == Get(q, key)
    ensures ValidateUpdateAppointment(rt, Obj(p)) == ValidateUpdateAppointment(rt, Obj(q))
  {
    assert Get(p, "title") == Get(q, "title");
    assert Get(p, "description") == Get(q, "description");
    assert Get(p, "startTime") == Get(q, "startTime");
    assert Get(p, "endTime") == Get(q, "endTime");
    assert Get(p, "status") == Get(q, "status");
  }

  /**
   * A `patientId` in an update is stripped before anything else happens: the
   * outcome is the same as without it, and the patch has no field to carry it.
   */
  lemma UpdateIgnoresPatientId(rt: Runtime, props: map<string, Value>)
    ensures ValidateUpdateAppointment(rt, Obj(props)) == ValidateUpdateAppointment(rt, Obj(props - {"patientId"}))
  {
    UpdateReadsDeclaredKeysOnly(rt, props, props - {"patientId"});
  }

  /** Whatever create accepts, update accepts too. */
  lemma UpdateAcceptsCreate(rt: Runtime, input: Value)
    requires ValidateCreateAppointment(rt, input).Success?
    ensures ValidateUpdateAppointment(rt, input).Success?
  {
  }
}

=== FILE: domain.dfy ===
/**
 * The enumerations shared by the request validators, the appointment form and
 * the database columns: a patient's gender and an appointment's status.
 */
module Domain {
  import opened Wrappers

  datatype Gender = Male | Female {
    /** The value stored in the `gender` column and sent over the wire. */
    function Name(): string {
      match this
      case Male => "male"
      case Female => "female"
    }
  }

  /** The accepted gender values, in declaration order. */
  const GenderNames: seq<string> := ["male", "female"]

  /** The gender a wire value names, if any. */
  function GenderFromName(s: string): (g: Option<Gender>)
    ensures g.Some? <==> s in GenderNames
    ensures g.Some? ==> g.value.Name() == s
  {
    if s == "male" then Some(Male)
    else if s == "female" then Some(Female)
    else None
  }

  /** Every gender's name is accepted and reads back as that gender. */
  lemma GenderNameRoundTrip(g: Gender)
    ensures g.Name() in GenderNames
    ensures GenderFromName(g.Name()) == Some(g)
  {
  }

  datatype Status = Scheduled | Completed | Cancelled {
    /** The value stored in the `status` column and sent over the wire. */
    function Name(): string {
      match this
      case Scheduled => "scheduled"
      case Completed => "completed"
      case Cancelled => "cancelled"
    }
  }

  /** The accepted status values, in declaration order. */
  const StatusNames: seq<string> := ["scheduled", "completed", "cancelled"]

  /** The status a wire value names, if any. */
  function StatusFromName(s: string): (st: Option<Status>)
    ensures st.Some? <==> s in StatusNames
    ensures st.Some? ==> st.value.Name() == s
  {
    if s == "scheduled" then Some(Scheduled)
    else if s == "completed" then Some(Completed)
    else if s == "cancelled" then Some(Cancelled)
    else None
  }

  /** Every status's name is accepted and reads back as that status. */
  lemma StatusNameRoundTrip(st: Status)
    ensures st.Name() in StatusNames
    ensures StatusFromName(st.Name()) == Some(st)
  {
  }
}

=== FILE: js.dfy ===
/**
 * The slice of JavaScript semantics the validators and the web helpers rely
 * on: the values a request or a form hands over, string length and string
 * comparison as JavaScript defines them (over UTF-16 code units), `String(x)`,
 * truthiness, and the time value `new Date(x)` produces.
 */
module Js {
  import opened Wrappers

  /**
   * A JavaScript value as it reaches a validator or a helper: JSON data plus
   * `undefined`. Numbers are finite (NaN and the infinities are not modelled);
   * an object is a plain data object, so none of its properties is callable.
   */
  datatype Value =
    | Undefined
    | Null
    | Bool(b: bool)
    | Num(x: real)
    | Str(s: string)
    | Arr(items: seq<Value>)
    | Obj(props: map<string, Value>)

  /**
   * Behaviour of the engine and of libraries whose code is not part of this
   * model, supplied by the caller: Zod's email and UUID patterns,
   * `Date.parse` (None for NaN), `Number.prototype.toString`, and the en-US
   * locale formatting of `formatDate` and `formatTime`.
   */
  datatype Runtime = Runtime(
    isEmail: string -> bool,
    isUuid: string -> bool,
    parseDate: string -> Option<int>,
    numberToString: real -> string,
    localeDate: string -> string,
    localeTime: string -> string)

  /** Property read `o[key]`: a missing key reads as `undefined`. */
  function Get(props: map<string, Value>, key: string): Value {
    if key in props then props[key] else Undefined
  }

  /** `v == null`: undefined or null. */
  predicate IsNullish(v: Value) {
    v.Undefined? || v.Null?
  }

  /** `!!v`: undefined, null, false, 0 and "" are the falsy values. */
  predicate Truthy(v: Value) {
    match v
    case Undefined => false
    case Null => false
    case Bool(b) => b
    case Num(x) => x != 0.0
    case Str(s) => s != ""
    case _ => true
  }

  // ---------------------------------------------------------------------
  // Strings as UTF-16
  // ---------------------------------------------------------------------

  /** The UTF-16 encoding of one Unicode scalar value. */
  function CodeUnits(c: char): (u: seq<int>)
    ensures 1 <= |u| <= 2
    ensures |u| == 1 <==> (c as int) < 0x1_0000
    ensures forall k :: 0 <= k < |u| ==> 0 <= u[k] < 0x1_0000
  {
    var n := c as int;
    if n < 0x1_0000 then [n]
    else [0xD800 + (n - 0x1_0000) / 0x400, 0xDC00 + (n - 0x1_0000) % 0x400]
  }

  /** The sequence of UTF-16 code units JavaScript sees for `s`. */
  function Utf16(s: string): seq<int> {
    if s == [] then [] else CodeUnits(s[0]) + Utf16(s[1..])
  }

  /** `s.length` in JavaScript: the number of UTF-16 code units. */
  function Length(s: string): nat {
    |Utf16(s)|
  }

  /** Every character of `s` lies in the Basic Multilingual Plane. */
  predicate Bmp(s: string) {
    forall i :: 0 <= i < |s| ==> (s[i] as int) < 0x1_0000
  }

  /** A BMP string is its own UTF-16 encoding, one unit per character. */
  lemma {:induction false} Utf16OfBmp(s: string)
    requires Bmp(s)
    ensures |Utf16(s)| == |s|
    ensures forall i :: 0 <= i < |s| ==> Utf16(s)[i] == s[i] as int
  {
    if s != [] {
      assert Bmp(s[1..]) by {
        forall i | 0 <= i < |s[1..]| ensures (s[1..][i] as int) < 0x1_0000 {
          assert s[1..][i] == s[i + 1];
        }
      }
      Utf16OfBmp(s[1..]);
    }
  }

  /** `.length` never counts fewer units than characters, nor more than two per character. */
  lemma {:induction false} LengthBounds(s: string)
    ensures |s| <= Length(s) <= 2 * |s|
    ensures Bmp(s) ==> Length(s) == |s|
  {
    if s != [] {
      LengthBounds(s[1..]);
      if Bmp(s) {
        Utf16OfBmp(s);
      }
    }
  }

  /** Lexicographic order on code-unit sequences: a proper prefix is smaller. */
  predicate UnitsLess(a: seq<int>, b: seq<int>) {
    if a == [] then b != []
    else if b == [] then false
    else if a[0] != b[0] then a[0] < b[0]
    else UnitsLess(a[1..], b[1..])
  }

  /** JavaScript's `a < b` on two strings. */
  predicate StringLess(a: string, b: string) {
    UnitsLess(Utf16(a), Utf16(b))
  }

  /** No code-unit sequence is below itself. */
  lemma {:induction false} UnitsLessIrreflexive(a: seq<int>)
    ensures !UnitsLess(a, a)
  {
    if a != [] {
      UnitsLessIrreflexive(a[1..]);
    }
  }

  /** Two sequences are never each below the other. */
  lemma {:induction false} UnitsLessAsymmetric(a: seq<int>, b: seq<int>)
    ensures !(UnitsLess(a, b) && UnitsLess(b, a))
  {
    if a != [] && b != [] && a[0] == b[0] {
      UnitsLessAsymmetric(a[1..], b[1..]);
    }
  }

  /** JavaScript string `<` is asymmetric: two strings are never each below the other. */
  lemma StringLessAsymmetric(a: string, b: string)
    ensures !(StringLess(a, b) && StringLess(b, a))
  {
    UnitsLessAsymmetric(Utf16(a), Utf16(b));
  }

  /** JavaScript string `<` is irreflexive: no string is below itself. */
  lemma StringLessIrreflexive(s: string)
    ensures !StringLess(s, s)
  {
    UnitsLessIrreflexive(Utf16(s));
  }

  // ---------------------------------------------------------------------
  // String(x)
  // ---------------------------------------------------------------------

  /**
   * Values `String(v)` converts without throwing. A data object with its own
   * `toString` property makes the conversion throw a TypeError, because that
   * property is not callable and `valueOf` yields no primitive; an array
   * throws when one of its elements does.
   */
  predicate Stringable(v: Value)
    decreases v
  {
    match v
    case Obj(props) => "toString" !in props
    case Arr(items) => forall i :: 0 <= i < |items| ==> Stringable(items[i])
    case _ => true
  }

  /**
   * `String(v)`, or None when it throws. Arrays join their elements with
   * commas, writing nothing for undefined and null elements; plain objects
   * print as "[object Object]".
   */
  function ToJsString(rt: Runtime, v: Value): Option<string>
    decreases v, if v.Arr? then |v.items| + 1 else 0
  {
    match v
    case Undefined => Some("undefined")
    case Null => Some("null")
    case Bool(b) => Some(if b then "true" else "false")
    case Num(x) => Some(rt.numberToString(x))
    case Str(s) => Some(s)
    case Arr(items) => JoinFrom(rt, v, 0)
    case Obj(props) => if "toString" in props then None else Some("[object Object]")
  }

  /** `arr.slice(i).join(",")`, or None when an element's conversion throws. */
  function JoinFrom(rt: Runtime, arr: Value, i: nat): Option<string>
    requires arr.Arr? && i <= |arr.items|
    decreases arr, |arr.items| - i
  {
    if i == |arr.items| then Some("")
    else
      var item := arr.items[i];
      var head := if item.Undefined? || item.Null? then Some("") else ToJsString(rt, item);
      var tail := JoinFrom(rt, arr, i + 1);
      if head.None? || tail.None? then None
      else Some(head.value + (if i + 1 < |arr.items| then "," else "") + tail.value)
  }

  /** `String(v)` succeeds exactly on the stringable values. */
  lemma {:induction false} ToJsStringDefined(rt: Runtime, v: Value)
    ensures ToJsString(rt, v).Some? <==> Stringable(v)
    decreases v, if v.Arr? then |v.items| + 1 else 0
  {
    if v.Arr? {
      JoinFromDefined(rt, v, 0);
    }
  }

  lemma {:induction false} JoinFromDefined(rt: Runtime, arr: Value, i: nat)
    requires arr.Arr? && i <= |arr.items|
    ensures JoinFrom(rt, arr, i).Some? <==> forall k :: i <= k < |arr.items| ==> Stringable(arr.items[k])
    decreases arr, |arr.items| - i
  {
    if i < |arr.items| {
      ToJsStringDefined(rt, arr.items[i]);
      JoinFromDefined(rt, arr, i + 1);
    }
  }

  // ---------------------------------------------------------------------
  // new Date(x)
  // ---------------------------------------------------------------------

  /** The largest magnitude of a valid time value, in milliseconds (100 million days). */
  const MaxTimeValue: int := 8_640_000_000_000_000

  /** ToIntegerOrInfinity on a finite number: rounds toward zero. */
  function Truncate(x: real): (n: int)
    ensures 0.0 <= x ==> n as real <= x < n as real + 1.0
    ensures x < 0.0 ==> n as real - 1.0 < x <= n as real
  {
    if x >= 0.0 then x.Floor else -((-x).Floor)
  }

  /** TimeClip: a time value beyond MaxTimeValue milliseconds is NaN (None). */
  function TimeClip(x: real): (t: Option<int>)
    ensures t.Some? <==> -(MaxTimeValue as real) <= x <= MaxTimeValue as real
    ensures t.Some? ==> -MaxTimeValue <= t.value <= MaxTimeValue
  {
    if -(MaxTimeValue as real) <= x <= MaxTimeValue as real then Some(Truncate(x)) else None
  }

  /**
   * The time value of `new Date(v)`, None for an Invalid Date or a thrown
   * TypeError. Strings are parsed; undefined is NaN; null, booleans and
   * numbers go through ToNumber and TimeClip; arrays and objects are first
   * converted to their string form.
   */
  function NewDate(rt: Runtime, v: Value): (t: Option<int>)
    ensures v.Undefined? ==> t.None?
    ensures v.Null? ==> t == Some(0)
    ensures v.Bool? ==> t == Some(if v.b then 1 else 0)
    ensures v.Num? ==> (t.Some? <==> -(MaxTimeValue as real) <= v.x <= MaxTimeValue as real)
    ensures v.Num? && t.Some? && 0.0 <= v.x ==> t.value as real <= v.x < t.value as real + 1.0
    ensures v.Num? && t.Some? && v.x < 0.0 ==> t.value as real - 1.0 < v.x <= t.value as real
    ensures v.Str? ==> t == rt.parseDate(v.s)
    ensures (v.Arr? || v.Obj?) && !Stringable(v) ==> t.None?
    ensures (v.Arr? || v.Obj?) && ToJsString(rt, v).Some? ==> t == rt.parseDate(ToJsString(rt, v).value)
  {
    ToJsStringDefined(rt, v);
    match v
    case Undefined => None
    case Null => TimeClip(0.0)
    case Bool(b) => TimeClip(if b then 1.0 else 0.0)
    case Num(x) => TimeClip(x)
    case Str(s) => rt.parseDate(s)
    case _ =>
      match ToJsString(rt, v)
      case None => None
      case Some(s) => rt.parseDate(s)
  }
}

=== FILE: patients.dfy ===
/**
 * The server's patient request validators: `createPatientSchema` and its
 * partial form `updatePatientSchema`. Each field rule is stated twice: once
 * as the parser the schema is built from, once as a plain predicate on the
 * raw value, and the parser is proved to accept exactly what the predicate
 * admits.
 */
module Patients {
  import opened Wrappers
  import opened Js
  import opened Zod
  import opened Domain

  /** A patient as the create schema outputs it. */
  datatype NewPatient = NewPatient(
    name: string,
    email: Field<string>,
    phone: Field<string>,
    dateOfBirth: Field<int>,
    gender: Field<Gender>,
    address: Field<string>)

  /** A patient update as the update schema outputs it: the name may be left out too. */
  datatype PatientPatch = PatientPatch(
    name: Option<string>,
    email: Field<string>,
    phone: Field<string>,
    dateOfBirth: Field<int>,
    gender: Field<Gender>,
    address: Field<string>)

  const NameMessage: string := "Name is required"
  const EmailMessage: string := "Invalid email"

  // ---------------------------------------------------------------------
  // The rules, read directly off the schema
  // ---------------------------------------------------------------------

  predicate NameOk(v: Value) { v.Str? && 1 <= Length(v.s) <= 255 }
  predicate EmailOk(rt: Runtime, v: Value) { v.Undefined? || v.Null? || (v.Str? && rt.isEmail(v.s)) }
  predicate PhoneOk(v: Value) { v.Undefined? || v.Null? || (v.Str? && 1 <= Length(v.s) <= 20) }
  predicate DateOfBirthOk(rt: Runtime, v: Value) { v.Undefined? || v.Null? || NewDate(rt, v).Some? }
  predicate GenderOk(v: Value) { v.Undefined? || v.Null? || v == Str("male") || v == Str("female") }
  predicate AddressOk(v: Value) { v.Undefined? || v.Null? || (v.Str? && Length(v.s) <= 500) }

  /** The rules every field but the name obeys, in both schemas alike. */
  predicate OtherFieldsOk(rt: Runtime, props: map<string, Value>) {
    && EmailOk(rt, Get(props, "email"))
    && PhoneOk(Get(props, "phone"))
    && DateOfBirthOk(rt, Get(props, "dateOfBirth"))
    && GenderOk(Get(props, "gender"))
    && AddressOk(Get(props, "address"))
  }

  predicate CreateAccepts(rt: Runtime, input: Value) {
    input.Obj? && NameOk(Get(input.props, "name")) && OtherFieldsOk(rt, input.props)
  }

  predicate UpdateAccepts(rt: Runtime, input: Value) {
    && input.Obj?
    && (Get(input.props, "name").Undefined? || NameOk(Get(input.props, "name")))
    && OtherFieldsOk(rt, input.props)
  }

  /** The value a nullish gender field denotes. */
  function GenderField(v: Value): Field<Gender> {
    match v
    case Null => NullValue
    case Str(s) => (match GenderFromName(s) case Some(g) => Given(g) case None => Absent)
    case _ => Absent
  }

  /** What an input denotes: each declared field read off the input, any other key dropped. */
  function Denoted(rt: Runtime, props: map<string, Value>): PatientPatch {
    var name := Get(props, "name");
    PatientPatch(
      if name.Str? then Some(name.s) else None,
      StringField(Get(props, "email")),
      StringField(Get(props, "phone")),
      DateField(rt, Get(props, "dateOfBirth")),
      GenderField(Get(props, "gender")),
      StringField(Get(props, "address")))
  }

  /** A created patient seen as an update that sets every field. */
  function AsPatch(p: NewPatient): PatientPatch {
    PatientPatch(Some(p.name), p.email, p.phone, p.dateOfBirth, p.gender, p.address)
  }

  // ---------------------------------------------------------------------
  // Field parsers
  // ---------------------------------------------------------------------

  /** `name: z.string().min(1, "Name is required").max(255)` */
  function ParseName(v: Value): (r: Parsed<string>)
    ensures r.Success? <==> NameOk(v)
    ensures r.Success? ==> r.value == v.s
    ensures ReportsAt(r, [Key("name")])
    ensures v.Str? && v.s == "" ==> r == Failure([Issue([Key("name")], TooSmall(1), Some(NameMessage))])
  {
    ParseString(v, [Key("name")], StringRule(1, Some(NameMessage), Some(255), None))
  }

  /** `email: z.email("Invalid email").nullish()` */
  function ParseEmail(rt: Runtime, v: Value): (r: Parsed<Field<string>>)
    ensures r.Success? <==> EmailOk(rt, v)
    ensures r.Success? ==> r.value == StringField(v)
    ensures ReportsAt(r, [Key("email")])
    ensures r.Failure? ==> forall k :: 0 <= k < |r.error| ==> r.error[k].message == Some(EmailMessage)
  {
    Nullish(v, ParseFormat(v, [Key("email")], "email", rt.isEmail, Some(EmailMessage)))
  }

  /** `phone: z.string().min(1).max(20).nullish()` */
  function ParsePhone(v: Value): (r: Parsed<Field<string>>)
    ensures r.Success? <==> PhoneOk(v)
    ensures r.Success? ==> r.value == StringField(v)
    ensures ReportsAt(r, [Key("phone")])
  {
    Nullish(v, ParseString(v, [Key("phone")], StringRule(1, None, Some(20), None)))
  }

  /** `dateOfBirth: z.coerce.date().nullish()` */
  function ParseDateOfBirth(rt: Runtime, v: Value): (r: Parsed<Field<int>>)
    ensures r.Success? <==> DateOfBirthOk(rt, v)
    ensures r.Success? ==> r.value == DateField(rt, v)
    ensures ReportsAt(r, [Key("dateOfBirth")])
  {
    Nullish(v, ParseDate(rt, v, [Key("dateOfBirth")]))
  }

  /** `gender: z.enum(["male", "female"]).nullish()` */
  function ParseGender(v: Value): (r: Parsed<Field<Gender>>)
    ensures r.Success? <==> GenderOk(v)
    ensures r.Success? ==> r.value == GenderField(v)
    ensures ReportsAt(r, [Key("gender")])
  {
    match Nullish(v, ParseEnum(v, [Key("gender")], GenderNames, None))
    case Success(Given(s)) =>
      Success(Given(GenderFromName(s).value))
    case Success(Absent) => Success(Absent)
    case Success(NullValue) => Success(NullValue)
    case Failure(e) => Failure(e)
  }

  /** `address: z.string().max(500).nullish()` */
  function ParseAddress(v: Value): (r: Parsed<Field<string>>)
    ensures r.Success? <==> AddressOk(v)
    ensures r.Success? ==> r.value == StringField(v)
    ensures ReportsAt(r, [Key("address")])
  {
    Nullish(v, ParseString(v, [Key("address")], StringRule(0, None, Some(500), None)))
  }

  // ---------------------------------------------------------------------
  // The schemas
  // ---------------------------------------------------------------------

  /**
   * `createPatientSchema.safeParse(input)`: every field is parsed and all
   * failures are reported together; keys the schema does not declare are
   * dropped.
   */
  function ValidateCreatePatient(rt: Runtime, input: Value): (r: Parsed<NewPatient>)
    ensures r.Success? <==> CreateAccepts(rt, input)
    ensures r.Success? ==> AsPatch(r.value) == Denoted(rt, input.props)
    ensures r.Failure? ==> |r.error| > 0
  {
    if !input.Obj? then NotAnObject([])
    else
      var props := input.props;
      var name := ParseName(Get(props, "name"));
      var email := ParseEmail(rt, Get(props, "email"));
      var phone := ParsePhone(Get(props, "phone"));
      var dateOfBirth := ParseDateOfBirth(rt, Get(props, "dateOfBirth"));
      var gender := ParseGender(Get(props, "gender"));
      var address := ParseAddress(Get(props, "address"));
      if name.Success? && email.Success? && phone.Success? && dateOfBirth.Success? && gender.Success? && address.Success? then
        Success(NewPatient(name.value, email.value, phone.value, dateOfBirth.value, gender.value, address.value))
      else
        Failure(IssuesOf(name) + IssuesOf(email) + IssuesOf(phone) + IssuesOf(dateOfBirth) + IssuesOf(gender) + IssuesOf(address))
  }

  /**
   * `updatePatientSchema.safeParse(input)`, the create schema with every key
   * optional. `.partial()` admits undefined but not null, so a null name is
   * still rejected.
   */
  function ValidateUpdatePatient(rt: Runtime, input: Value): (r: Parsed<PatientPatch>)
    ensures r.Success? <==> UpdateAccepts(rt, input)
    ensures r.Success? ==> r.value == Denoted(rt, input.props)
    ensures r.Failure? ==> |r.error| > 0
  {
    if !input.Obj? then NotAnObject([])
    else
      var props := input.props;
      var name := Optional(Get(props, "name"), ParseName(Get(props, "name")));
      var email := ParseEmail(rt, Get(props, "email"));
      var phone := ParsePhone(Get(props, "phone"));
      var dateOfBirth := ParseDateOfBirth(rt, Get(props, "dateOfBirth"));
      var gender := ParseGender(Get(props, "gender"));
      var address := ParseAddress(Get(props, "address"));
      if name.Success? && email.Success? && phone.Success? && dateOfBirth.Success? && gender.Success? && address.Success? then
        Success(PatientPatch(name.value, email.value, phone.value, dateOfBirth.value, gender.value, address.value))
      else
        Failure(IssuesOf(name) + IssuesOf(email) + IssuesOf(phone) + IssuesOf(dateOfBirth) + IssuesOf(gender) + IssuesOf(address))
  }

  // ---------------------------------------------------------------------
  // Properties
  // ---------------------------------------------------------------------

  /** The paths of the six declared fields. */
  const FieldKeys: seq<string> := ["name", "email", "phone", "dateOfBirth", "gender", "address"]

  /** Whether the field named `key` passes its rule in the create schema. */
  predicate CreateFieldOk(rt: Runtime, props: map<string, Value>, key: string) {
    var v := Get(props, key);
    if key == "name" then NameOk(v)
    else if key == "email" then EmailOk(rt, v)
    else if key == "phone" then PhoneOk(v)
    else if key == "dateOfBirth" then DateOfBirthOk(rt, v)
    else if key == "gender" then GenderOk(v)
    else AddressOk(v)
  }

  /**
   * A rejected object input names every failing field and no other: there is
   * an issue at a field's path exactly when that field breaks its rule.
   */
  lemma CreatePatientIssues(rt: Runtime, props: map<string, Value>, key: string)
    requires key in FieldKeys
    ensures var r := ValidateCreatePatient(rt, Obj(props));
      r.Failure? ==> (Flags(r.error, [Key(key)]) <==> !CreateFieldOk(rt, props, key))
  {
    var name := ParseName(Get(props, "name"));
    var email := ParseEmail(rt, Get(props, "email"));
    var phone := ParsePhone(Get(props, "phone"));
    var dateOfBirth := ParseDateOfBirth(rt, Get(props, "dateOfBirth"));
    var gender := ParseGender(Get(props, "gender"));
    var address := ParseAddress(Get(props, "address"));
    var q := [Key(key)];
    FlagsOfParse(name, [Key("name")], q);
    FlagsOfParse(email, [Key("email")], q);
    FlagsOfParse(phone, [Key("phone")], q);
    FlagsOfParse(dateOfBirth, [Key("dateOfBirth")], q);
    FlagsOfParse(gender, [Key("gender")], q);
    FlagsOfParse(address, [Key("address")], q);
    var s2 := IssuesOf(name) + IssuesOf(email);
    var s3 := s2 + IssuesOf(phone);
    var s4 := s3 + IssuesOf(dateOfBirth);
    var s5 := s4 + IssuesOf(gender);
    var s6 := s5 + IssuesOf(address);
    FlagsAppend(IssuesOf(name), IssuesOf(email), q);
    FlagsAppend(s2, IssuesOf(phone), q);
    FlagsAppend(s3, IssuesOf(dateOfBirth), q);
    FlagsAppend(s4, IssuesOf(gender), q);
    FlagsAppend(s5, IssuesOf(address), q);
    CreatePatientFailure(rt, props);
  }

  /** A rejected create reports the fields' issues in declaration order. */
  lemma CreatePatientFailure(rt: Runtime, props: map<string, Value>)
    ensures var r := ValidateCreatePatient(rt, Obj(props));
      r.Failure? ==> (r.error ==
        IssuesOf(ParseName(Get(props, "name"))) + IssuesOf(ParseEmail(rt, Get(props, "email")))
        + IssuesOf(ParsePhone(Get(props, "phone"))) + IssuesOf(ParseDateOfBirth(rt, Get(props, "dateOfBirth")))
        + IssuesOf(ParseGender(Get(props, "gender"))) + IssuesOf(ParseAddress(Get(props, "address"))))
  {
  }

  /** Whether the field named `key` passes its rule in the update schema: the name may be absent, not null. */
  predicate UpdateFieldOk(rt: Runtime, props: map<string, Value>, key: string) {
    if key == "name" then Get(props, "name").Undefined? || NameOk(Get(props, "name"))
    else CreateFieldOk(rt, props, key)
  }

  /** A rejected update reports the fields' issues in declaration order. */
  lemma UpdatePatientFailure(rt: Runtime, props: map<string, Value>)
    ensures var r := ValidateUpdatePatient(rt, Obj(props));
      r.Failure? ==> (r.error ==
        IssuesOf(Optional(Get(props, "name"), ParseName(Get(props, "name")))) + IssuesOf(ParseEmail(rt, Get(props, "email")))
        + IssuesOf(ParsePhone(Get(props, "phone"))) + IssuesOf(ParseDateOfBirth(rt, Get(props, "dateOfBirth")))
        + IssuesOf(ParseGender(Get(props, "gender"))) + IssuesOf(ParseAddress(Get(props, "address"))))
  {
  }

  /**
   * A rejected update names every failing field and no other: there is an
   * issue at a field's key exactly when that field breaks its update rule.
   */
  lemma UpdatePatientIssues(rt: Runtime, props: map<string, Value>, key: string)
    requires key in FieldKeys
    ensures var r := ValidateUpdatePatient(rt, Obj(props));
      r.Failure? ==> (Flags(r.error, [Key(key)]) <==> !UpdateFieldOk(rt, props, key))
  {
    var name := Optional(Get(props, "name"), ParseName(Get(props, "name")));
    var email := ParseEmail(rt, Get(props, "email"));
    var phone := ParsePhone(Get(props, "phone"));
    var dateOfBirth := ParseDateOfBirth(rt, Get(props, "dateOfBirth"));
    var gender := ParseGender(Get(props, "gender"));
    var address := ParseAddress(Get(props, "address"));
    var q := [Key(key)];
    FlagsOfParse(name, [Key("name")], q);
    FlagsOfParse(email, [Key("email")], q);
    FlagsOfParse(phone, [Key("phone")], q);
    FlagsOfParse(dateOfBirth, [Key("dateOfBirth")], q);
    FlagsOfParse(gender, [Key("gender")], q);
    FlagsOfParse(address, [Key("address")], q);
    var s2 := IssuesOf(name) + IssuesOf(email);
    var s3 := s2 + IssuesOf(phone);
    var s4 := s3 + IssuesOf(dateOfBirth);
    var s5 := s4 + IssuesOf(gender);
    FlagsAppend(IssuesOf(name), IssuesOf(email), q);
    FlagsAppend(s2, IssuesOf(phone), q);
    FlagsAppend(s3, IssuesOf(dateOfBirth), q);
    FlagsAppend(s4, IssuesOf(gender), q);
    FlagsAppend(s5, IssuesOf(address), q);
    UpdatePatientFailure(rt, props);
  }

  /** The name rule: with the other fields in order, create accepts exactly names of 1 to 255 units. */
  lemma CreateNameRule(rt: Runtime, props: map<string, Value>)
    requires OtherFieldsOk(rt, props)
    ensures ValidateCreatePatient(rt, Obj(props)).Success? <==> Get(props, "name").Str? && 1 <= Length(Get(props, "name").s) <= 255
  {
  }

  /** An empty name is reported as "Name is required". */
  lemma EmptyNameMessage(rt: Runtime, props: map<string, Value>)
    requires Get(props, "name") == Str("") && OtherFieldsOk(rt, props)
    ensures ValidateCreatePatient(rt, Obj(props)) == Failure([Issue([Key("name")], TooSmall(1), Some(NameMessage))])
  {
    var name := ParseName(Get(props, "name"));
    var all := IssuesOf(name) + IssuesOf(ParseEmail(rt, Get(props, "email"))) + IssuesOf(ParsePhone(Get(props, "phone")))
      + IssuesOf(ParseDateOfBirth(rt, Get(props, "dateOfBirth"))) + IssuesOf(ParseGender(Get(props, "gender")))
      + IssuesOf(ParseAddress(Get(props, "address")));
    assert all == IssuesOf(name);
    assert ValidateCreatePatient(rt, Obj(props)) == Failure(all);
  }

  /** Every optional field accepts undefined (an absent key) and null, in either schema. */
  lemma NullishFieldsAccepted(rt: Runtime, props: map<string, Value>)
    requires forall key :: key in props && key != "name" ==> props[key].Undefined? || props[key].Null?
    ensures NameOk(Get(props, "name")) ==> ValidateCreatePatient(rt, Obj(props)).Success?
    ensures (Get(props, "name").Undefined? || NameOk(Get(props, "name"))) ==> ValidateUpdatePatient(rt, Obj(props)).Success?
  {
  }

  /** A phone, once present and not null, must be 1 to 20 units long: the empty string is refused. */
  lemma EmptyPhoneRejected(rt: Runtime, props: map<string, Value>)
    requires Get(props, "phone") == Str("")
    ensures ValidateCreatePatient(rt, Obj(props)).Failure?
    ensures ValidateUpdatePatient(rt, Obj(props)).Failure?
    ensures Flags(ValidateCreatePatient(rt, Obj(props)).error, [Key("phone")])
  {
    CreatePatientIssues(rt, props, "phone");
  }

  /** Update accepts whatever create accepts, and denotes the same field values. */
  lemma UpdateAcceptsCreate(rt: Runtime, input: Value)
    requires ValidateCreatePatient(rt, input).Success?
    ensures ValidateUpdatePatient(rt, input) == Success(AsPatch(ValidateCreatePatient(rt, input).value))
  {
  }

  /** The empty update `{}` is accepted and changes nothing. */
  lemma EmptyUpdateAccepted(rt: Runtime)
    ensures ValidateUpdatePatient(rt, Obj(map[])) == Success(PatientPatch(None, Absent, Absent, Absent, Absent, Absent))
  {
  }

  /** `.partial()` makes the name optional but not nullable: `{name: null}` is refused by update. */
  lemma UpdateRejectsNullName(rt: Runtime, props: map<string, Value>)
    requires Get(props, "name") == Null
    ensures ValidateUpdatePatient(rt, Obj(props)).Failure?
  {
  }
}

=== FILE: web_utils.dfy ===
/**
 * The web client's display helpers: `fieldError`, which turns a form field
 * error into the text shown under the field, and the empty-value guards of
 * `formatDate` and `formatTime`.
 */
module Format {
  import opened Wrappers
  import opened Js
  import opened Zod

  /** What `formatDate` shows for a missing or empty date. */
  const NoDate: string := "—"

  /**
   * `fieldError(error)`: a string is shown as it is; an object with a
   * `message` property shows `String(message)`; anything else shows
   * `String(error)`. None when that conversion throws.
   */
  function FieldError(rt: Runtime, error: Value): (r: Option<string>)
    ensures error.Str? ==> r == Some(error.s)
    ensures error.Obj? && "message" in error.props ==> r == ToJsString(rt, error.props["message"])
    ensures error.Obj? && "message" in error.props ==> (r.Some? <==> Stringable(error.props["message"]))
    ensures !error.Str? && !(error.Obj? && "message" in error.props) ==> r == ToJsString(rt, error)
    ensures !error.Str? && !(error.Obj? && "message" in error.props) ==> (r.Some? <==> Stringable(error))
  {
    ToJsStringDefined(rt, error);
    match error
    case Str(s) => Some(s)
    case Obj(props) =>
      if "message" in props then
        ToJsStringDefined(rt, props["message"]);
        ToJsString(rt, props["message"])
      else ToJsString(rt, error)
    case _ => ToJsString(rt, error)
  }

  /** Null and undefined are shown by name, not swallowed. */
  lemma FieldErrorOfNullish(rt: Runtime)
    ensures FieldError(rt, Null) == Some("null")
    ensures FieldError(rt, Undefined) == Some("undefined")
  {
  }

  /** A plain object without a message is shown as "[object Object]". */
  lemma FieldErrorOfPlainObject(rt: Runtime, props: map<string, Value>)
    requires "message" !in props && "toString" !in props
    ensures FieldError(rt, Obj(props)) == Some("[object Object]")
  {
  }

  /** A message that is itself a string is shown unchanged, whatever else the object holds. */
  lemma FieldErrorOfStringMessage(rt: Runtime, props: map<string, Value>, m: string)
    requires Get(props, "message") == Str(m)
    ensures FieldError(rt, Obj(props)) == Some(m)
  {
  }

  /** A path as a JavaScript array of keys and indices. */
  function PathValue(path: Path): (r: Value)
    ensures r.Arr? && |r.items| == |path|
  {
    Arr(seq(|path|, k requires 0 <= k < |path| => match path[k] case Key(name) => Str(name) case Index(i) => Num(i as real)))
  }

  /** An issue as a form library hands it to a field: an object with `message` and `path`. */
  function IssueValue(issue: Issue, defaultMessage: string): (r: Value)
    ensures r.Obj? && "message" in r.props && "toString" !in r.props
  {
    Obj(map[
      "message" := Str(if issue.message.Some? then issue.message.value else defaultMessage),
      "path" := PathValue(issue.path)])
  }

  /**
   * A schema issue reaches the screen as its own message: the custom message
   * the schema attached, or the library's default wording otherwise.
   */
  lemma FieldErrorShowsIssueMessage(rt: Runtime, issue: Issue, defaultMessage: string)
    ensures FieldError(rt, IssueValue(issue, defaultMessage))
      == Some(if issue.message.Some? then issue.message.value else defaultMessage)
  {
  }

  /**
   * `fieldError` is declared to return a string, but it throws exactly when
   * `String` does on what it converts: an error whose `message` is an object
   * with its own `toString` data property has no displayable text.
   */
  lemma FieldErrorThrowsOnUnprintableMessage(rt: Runtime, inner: map<string, Value>)
    requires "toString" in inner
    ensures FieldError(rt, Obj(map["message" := Obj(inner)])).None?
  {
    assert !Stringable(Obj(inner));
  }

  /** The values `formatDate` and `formatTime` accept: a string, null or undefined. */
  predicate DateInput(v: Value) { v.Undefined? || v.Null? || v.Str? }

  /**
   * `formatDate(value)`: "—" for a missing or empty value, otherwise the
   * en-US locale date of `new Date(value)`.
   */
  function FormatDate(rt: Runtime, v: Value): (r: string)
    requires DateInput(v)
    ensures IsNullish(v) || v == Str("") ==> r == NoDate
    ensures v.Str? && v.s != "" ==> r == rt.localeDate(v.s)
  {
    if !Truthy(v) then NoDate else rt.localeDate(v.s)
  }

  /**
   * `formatTime(value)`: "" for a missing or empty value, otherwise the
   * en-US locale time of `new Date(value)`.
   */
  function FormatTime(rt: Runtime, v: Value): (r: string)
    requires DateInput(v)
    ensures IsNullish(v) || v == Str("") ==> r == ""
    ensures v.Str? && v.s != "" ==> r == rt.localeTime(v.s)
  {
    if !Truthy(v) then "" else rt.localeTime(v.s)
  }

  /** The guard of both helpers: among their inputs, falsy means null, undefined or "". */
  lemma FalsyDateInputs(v: Value)
    requires DateInput(v)
    ensures !Truthy(v) <==> v == Undefined || v == Null || v == Str("")
  {
  }
}

=== FILE: workflow.dfy ===
/**
 * The server's workflow validator, `saveWorkflowSchema`: a non-empty array
 * of steps, each with an optional UUID, a label and a non-negative integer
 * order. Steps are checked one by one; nothing relates one step to another.
 */
module Workflow {
  import opened Wrappers
  import opened Js
  import opened Zod

  /** One step as the schema outputs it; `id` is absent or null for a step not yet saved. */
  datatype StepInput = StepInput(id: Field<string>, stepLabel: string, order: nat)

  const LabelMessage: string := "Label is required"
  const NoStepsMessage: string := "At least one step is required"

  /** The issue an empty step list raises. */
  const NoStepsIssue: Issue := Issue([Key("steps")], TooSmall(1), Some(NoStepsMessage))

  // ---------------------------------------------------------------------
  // The rules, read directly off the schema
  // ---------------------------------------------------------------------

  predicate IdOk(rt: Runtime, v: Value) { IsNullish(v) || (v.Str? && rt.isUuid(v.s)) }
  predicate LabelOk(v: Value) { v.Str? && 1 <= Length(v.s) <= 255 }

  /** One element of `steps` passes the step schema. */
  predicate StepOk(rt: Runtime, v: Value) {
    v.Obj? && IdOk(rt, Get(v.props, "id")) && LabelOk(Get(v.props, "label")) && IsOrder(Get(v.props, "order"))
  }

  predicate SaveAccepts(rt: Runtime, input: Value) {
    && input.Obj?
    && Get(input.props, "steps").Arr?
    && |Get(input.props, "steps").items| > 0
    && forall i :: 0 <= i < |Get(input.props, "steps").items| ==> StepOk(rt, Get(input.props, "steps").items[i])
  }

  /** `s` carries exactly the declared fields of the accepted element `v`. */
  predicate Denotes(v: Value, s: StepInput) {
    && v.Obj?
    && s.id == StringField(Get(v.props, "id"))
    && Get(v.props, "label").Str? && s.stepLabel == Get(v.props, "label").s
    && Get(v.props, "order").Num? && s.order as real == Get(v.props, "order").x
  }

  /** The step index an issue is reported under, -1 when it names none. */
  function StepIndexOf(issue: Issue): int {
    if |issue.path| >= 2 && issue.path[0] == Key("steps") && issue.path[1].Index? then issue.path[1].i else -1
  }

  /** Some issue is reported under step `j`. */
  predicate Blames(issues: seq<Issue>, j: int) {
    exists k :: 0 <= k < |issues| && StepIndexOf(issues[k]) == j
  }

  // ---------------------------------------------------------------------
  // Parsers
  // ---------------------------------------------------------------------

  /** The step schema applied to `v`, reporting under `at`. */
  function ValidateStep(rt: Runtime, v: Value, at: Path): (r: Parsed<StepInput>)
    ensures r.Success? <==> StepOk(rt, v)
    ensures r.Success? ==> Denotes(v, r.value)
    ensures r.Failure? ==> |r.error| > 0
    ensures r.Failure? ==> forall k :: 0 <= k < |r.error| ==> at <= r.error[k].path
  {
    if !v.Obj? then NotAnObject(at)
    else
      var props := v.props;
      var id := Nullish(Get(props, "id"), ParseFormat(Get(props, "id"), at + [Key("id")], "uuid", rt.isUuid, None));
      var stepLabel := ParseString(Get(props, "label"), at + [Key("label")], StringRule(1, Some(LabelMessage), Some(255), None));
      var order := ParseOrder(Get(props, "order"), at + [Key("order")]);
      if id.Success? && stepLabel.Success? && order.Success? then
        Success(StepInput(id.value, stepLabel.value, order.value))
      else
        Failure(IssuesOf(id) + IssuesOf(stepLabel) + IssuesOf(order))
  }

  /** The elements `items[i..]`, each validated under `["steps", j]`, all issues collected. */
  function ValidateSteps(rt: Runtime, items: seq<Value>, i: nat): (r: Parsed<seq<StepInput>>)
    requires i <= |items|
    decreases |items| - i
    ensures r.Success? <==> forall j :: i <= j < |items| ==> StepOk(rt, items[j])
    ensures r.Success? ==> |r.value| == |items| - i
    ensures r.Success? ==> forall k :: 0 <= k < |r.value| ==> Denotes(items[i + k], r.value[k])
    ensures r.Failure? ==> |r.error| > 0
  {
    if i == |items| then Success([])
    else
      var head := ValidateStep(rt, items[i], [Key("steps"), Index(i)]);
      var tail := ValidateSteps(rt, items, i + 1);
      if head.Success? && tail.Success? then
        DenotesCons(items, i, head.value, tail.value);
        Success([head.value] + tail.value)
      else Failure(IssuesOf(head) + IssuesOf(tail))
  }

  /** Denoting `items[i]` and then `items[i + 1..]` element by element is denoting `items[i..]`. */
  lemma DenotesCons(items: seq<Value>, i: nat, h: StepInput, t: seq<StepInput>)
    requires i < |items| && |t| == |items| - i - 1
    requires Denotes(items[i], h)
    requires forall k :: 0 <= k < |t| ==> Denotes(items[i + 1 + k], t[k])
    ensures forall k :: 0 <= k < |[h] + t| ==> Denotes(items[i + k], ([h] + t)[k])
  {
    forall k | 0 <= k < |[h] + t| ensures Denotes(items[i + k], ([h] + t)[k]) {
      var hk := ([h] + t)[k];
      if k == 0 {
        assert hk == h;
      } else {
        var tm := t[k - 1];
        assert hk == tm && items[i + k] == items[i + 1 + (k - 1)];
      }
    }
  }

  /** Every issue of a step sits under the step's own path. */
  lemma StepIssuesUnder(rt: Runtime, v: Value, at: Path)
    ensures var e := IssuesOf(ValidateStep(rt, v, at));
      forall k :: 0 <= k < |e| ==> at <= e[k].path
  {
  }

  /** The issues of one step, validated under `["steps", i]`, all carry index `i`. */
  lemma StepIssuesAt(rt: Runtime, v: Value, i: nat)
    ensures var e := IssuesOf(ValidateStep(rt, v, [Key("steps"), Index(i)]));
      && (|e| > 0 <==> !StepOk(rt, v))
      && forall k :: 0 <= k < |e| ==> StepIndexOf(e[k]) == i
  {
    var at := [Key("steps"), Index(i)];
    var e := IssuesOf(ValidateStep(rt, v, at));
    StepIssuesUnder(rt, v, at);
    forall k | 0 <= k < |e| ensures StepIndexOf(e[k]) == i {
      assert at <= e[k].path;
      assert e[k].path[0] == at[0] && e[k].path[1] == at[1];
    }
  }

  /** The issues of `items[i..]` are those of step `i` followed by those of the rest. */
  lemma StepsIssuesSplit(rt: Runtime, items: seq<Value>, i: nat)
    requires i < |items|
    ensures IssuesOf(ValidateSteps(rt, items, i))
      == IssuesOf(ValidateStep(rt, items[i], [Key("steps"), Index(i)])) + IssuesOf(ValidateSteps(rt, items, i + 1))
  {
  }

  /** Every issue of `items[i..]` sits under the index of a step that breaks a rule. */
  lemma {:induction false} StepIssuesNameFailingSteps(rt: Runtime, items: seq<Value>, i: nat)
    requires i <= |items|
    decreases |items| - i
    ensures var issues := IssuesOf(ValidateSteps(rt, items, i));
      forall k :: 0 <= k < |issues| ==>
        i <= StepIndexOf(issues[k]) < |items| && !StepOk(rt, items[StepIndexOf(issues[k])])
  {
    if i < |items| {
      var head := IssuesOf(ValidateStep(rt, items[i], [Key("steps"), Index(i)]));
      var tail := IssuesOf(ValidateSteps(rt, items, i + 1));
      StepIssuesAt(rt, items[i], i);
      StepsIssuesSplit(rt, items, i);
      StepIssuesNameFailingSteps(rt, items, i + 1);
      var issues := head + tail;
      forall k | 0 <= k < |issues|
        ensures i <= StepIndexOf(issues[k]) < |items| && !StepOk(rt, items[StepIndexOf(issues[k])])
      {
        if k < |head| {
          assert issues[k] == head[k];
        } else {
          assert issues[k] == tail[k - |head|];
        }
      }
    }
  }

  /** An index blamed by either part of a list of issues is blamed by the whole. */
  lemma BlamesAppend(a: seq<Issue>, b: seq<Issue>, j: int)
    ensures Blames(a, j) || Blames(b, j) ==> Blames(a + b, j)
  {
    if Blames(a, j) {
      var k :| 0 <= k < |a| && StepIndexOf(a[k]) == j;
      assert (a + b)[k] == a[k];
    } else if Blames(b, j) {
      var k :| 0 <= k < |b| && StepIndexOf(b[k]) == j;
      assert (a + b)[|a| + k] == b[k];
    }
  }

  /** Every step of `items[i..]` that breaks a rule has an issue under its index. */
  lemma {:induction false} FailingStepsNamed(rt: Runtime, items: seq<Value>, i: nat)
    requires i <= |items|
    decreases |items| - i
    ensures forall j :: i <= j < |items| && !StepOk(rt, items[j]) ==> Blames(IssuesOf(ValidateSteps(rt, items, i)), j)
  {
    if i < |items| {
      var head := IssuesOf(ValidateStep(rt, items[i], [Key("steps"), Index(i)]));
      var tail := IssuesOf(ValidateSteps(rt, items, i + 1));
      StepIssuesAt(rt, items[i], i);
      StepsIssuesSplit(rt, items, i);
      FailingStepsNamed(rt, items, i + 1);
      forall j | i <= j < |items| && !StepOk(rt, items[j])
        ensures Blames(head + tail, j)
      {
        if j == i {
          assert StepIndexOf(head[0]) == i;
        }
        BlamesAppend(head, tail, j);
      }
    }
  }

  /**
   * The issues of `items[i..]` blame exactly the failing steps: every issue
   * sits under the index of a step that breaks a rule, and every such step
   * has an issue under its index.
   */
  lemma StepIssuesBlame(rt: Runtime, items: seq<Value>, i: nat)
    requires i <= |items|
    ensures var issues := IssuesOf(ValidateSteps(rt, items, i));
      forall k :: 0 <= k < |issues| ==>
        i <= StepIndexOf(issues[k]) < |items| && !StepOk(rt, items[StepIndexOf(issues[k])])
    ensures forall j :: i <= j < |items| && !StepOk(rt, items[j]) ==> Blames(IssuesOf(ValidateSteps(rt, items, i)), j)
  {
    StepIssuesNameFailingSteps(rt, items, i);
    FailingStepsNamed(rt, items, i);
  }

  /**
   * `saveWorkflowSchema.safeParse(input)`. An empty list is refused with
   * "At least one step is required"; otherwise every step is validated and
   * all step issues are reported together.
   */
  function ValidateSaveWorkflow(rt: Runtime, input: Value): (r: Parsed<seq<StepInput>>)
    ensures r.Success? <==> SaveAccepts(rt, input)
    ensures r.Success? ==>
      var items := Get(input.props, "steps").items;
      |r.value| == |items| && forall j :: 0 <= j < |items| ==> Denotes(items[j], r.value[j])
    ensures input.Obj? && Get(input.props, "steps") == Arr([]) ==> r == Failure([NoStepsIssue])
    ensures r.Failure? ==> |r.error| > 0
  {
    if !input.Obj? then NotAnObject([])
    else
      var steps := Get(input.props, "steps");
      if !steps.Arr? then Failure([Issue([Key("steps")], InvalidType("array"), None)])
      else if |steps.items| == 0 then Failure([NoStepsIssue])
      else ValidateSteps(rt, steps.items, 0)
  }

  // ---------------------------------------------------------------------
  // Properties
  // ---------------------------------------------------------------------

  /** The request `{steps: items}`. */
  function Request(items: seq<Value>): Value {
    Obj(map["steps" := Arr(items)])
  }

  /**
   * A rejected non-empty list is reported step by step: an issue sits under
   * `["steps", j]` exactly when step `j` breaks a rule, and nowhere else.
   */
  lemma SaveBlamesFailingSteps(rt: Runtime, items: seq<Value>, j: int)
    requires |items| > 0
    ensures var r := ValidateSaveWorkflow(rt, Request(items));
      Blames(IssuesOf(r), j) <==> 0 <= j < |items| && !StepOk(rt, items[j])
  {
    var r := ValidateSteps(rt, items, 0);
    assert ValidateSaveWorkflow(rt, Request(items)) == r;
    StepIssuesBlame(rt, items, 0);
    if Blames(IssuesOf(r), j) {
      var issues := IssuesOf(r);
      var k :| 0 <= k < |issues| && StepIndexOf(issues[k]) == j;
      assert issues == IssuesOf(ValidateSteps(rt, items, 0));
      assert 0 <= StepIndexOf(issues[k]);
      assert StepIndexOf(issues[k]) < |items|;
      assert !StepOk(rt, items[StepIndexOf(issues[k])]);
    }
  }

  /**
   * No rule relates one step to another (no distinct or contiguous orders, no
   * unique labels): a list is accepted exactly when each of its steps would
   * be accepted on its own.
   */
  lemma {:induction false} StepsCheckedIndependently(rt: Runtime, items: seq<Value>)
    requires |items| > 0
    ensures ValidateSaveWorkflow(rt, Request(items)).Success? <==>
      forall j :: 0 <= j < |items| ==> ValidateSaveWorkflow(rt, Request([items[j]])).Success?
  {
    forall j | 0 <= j < |items|
      ensures ValidateSaveWorkflow(rt, Request([items[j]])).Success? <==> StepOk(rt, items[j])
    {
      assert Get(Request([items[j]]).props, "steps").items == [items[j]];
    }
  }

  /** Two steps with the same order (and label) are accepted together. */
  lemma DuplicateOrdersAccepted(rt: Runtime, step: Value)
    requires ValidateSaveWorkflow(rt, Request([step])).Success?
    ensures ValidateSaveWorkflow(rt, Request([step, step])).Success?
  {
    StepsCheckedIndependently(rt, [step, step]);
  }

  /** `{steps: [{label: "Intake", order: 0}]}` is accepted as one new step. */
  lemma IntakeStepAccepted(rt: Runtime)
    ensures ValidateSaveWorkflow(rt, Request([Obj(map["label" := Str("Intake"), "order" := Num(0.0)])]))
      == Success([StepInput(Absent, "Intake", 0)])
  {
    var step := Obj(map["label" := Str("Intake"), "order" := Num(0.0)]);
    LengthBounds("Intake");
    assert Bmp("Intake");
    assert LabelOk(Get(step.props, "label"));
    assert IsOrder(Get(step.props, "order"));
    assert StepOk(rt, step);
    var r := ValidateSaveWorkflow(rt, Request([step]));
    assert r.Success?;
    assert |r.value| == 1;
    assert Denotes(step, r.value[0]);
    assert r.value[0] == StepInput(Absent, "Intake", 0);
    assert r.value == [r.value[0]];
  }
}

=== FILE: wrappers.dfy ===
/** Option and Result, shared by the whole model. */
module Wrappers {

  /** A value that may be missing. */
  datatype Option<+T> = None | Some(value: T)

  /** Either an accepted value or an error value. */
  datatype Result<+R, +E> = Success(value: R) | Failure(error: E)
}

=== FILE: zod.dfy ===
/**
 * The schema building blocks the validators are written with (Zod 4), each as
 * a parser from a JavaScript value to either the parsed value or a non-empty
 * list of issues. Every issue carries the path of the offending field, the
 * kind of failure, and the custom message the schema attached to it (None
 * where the library's default message applies; default wording is not
 * modelled).
 */
module Zod {
  import opened Wrappers
  import opened Js

  /** One step of an issue path: an object key or an array index. */
  datatype Segment = Key(name: string) | Index(i: nat)

  type Path = seq<Segment>

  /** What went wrong, mirroring Zod's issue codes. */
  datatype Code =
    | InvalidType(expected: string)
    | TooSmall(minimum: int)
    | TooBig(maximum: int)
    | InvalidFormat(format: string)
    | InvalidValue(options: seq<string>)
    | CustomCheck

  datatype Issue = Issue(path: Path, code: Code, message: Option<string>)

  /** What a parser produces: the parsed value, or the issues found. */
  type Parsed<T> = Result<T, seq<Issue>>

  /**
   * A nullish field after parsing: the key was absent (or undefined), was
   * null, or carried an accepted value. Omission and null stay distinct.
   */
  datatype Field<+T> = Absent | NullValue | Given(value: T)

  /** A failure reports at least one issue, and every issue at `path`. */
  predicate ReportsAt<T>(r: Parsed<T>, path: Path) {
    r.Failure? ==> |r.error| > 0 && forall k :: 0 <= k < |r.error| ==> r.error[k].path == path
  }

  /** Some issue in `issues` sits at `path`. */
  predicate Flags(issues: seq<Issue>, path: Path) {
    exists k :: 0 <= k < |issues| && issues[k].path == path
  }

  /** An issue at `path` in a concatenation comes from one of the two halves. */
  lemma FlagsAppend(a: seq<Issue>, b: seq<Issue>, path: Path)
    ensures Flags(a + b, path) <==> Flags(a, path) || Flags(b, path)
  {
    if Flags(a + b, path) {
      var k :| 0 <= k < |a + b| && (a + b)[k].path == path;
      if k >= |a| {
        assert b[k - |a|] == (a + b)[k];
      }
    }
    if Flags(a, path) {
      var k :| 0 <= k < |a| && a[k].path == path;
      assert (a + b)[k] == a[k];
    }
    if Flags(b, path) {
      var k :| 0 <= k < |b| && b[k].path == path;
      assert (a + b)[|a| + k] == b[k];
    }
  }

  /** All issues of a failed parse, none for a successful one. */
  function IssuesOf<T>(r: Parsed<T>): seq<Issue> {
    if r.Success? then [] else r.error
  }

  /** A parser that reports at `path` flags `q` exactly when it failed and `q` is `path`. */
  lemma FlagsOfParse<T>(r: Parsed<T>, path: Path, q: Path)
    requires ReportsAt(r, path)
    ensures Flags(IssuesOf(r), q) <==> r.Failure? && q == path
  {
    if r.Failure? && q == path {
      assert r.error[0].path == path;
    }
  }

  /** Length bounds of `z.string().min(..).max(..)`, each with its custom message. */
  datatype StringRule = StringRule(min: nat, minMessage: Option<string>, max: Option<nat>, maxMessage: Option<string>)

  /** The length bounds of `rule`, on JavaScript's `.length`. */
  predicate WithinBounds(s: string, rule: StringRule) {
    rule.min <= Length(s) && (rule.max.Some? ==> Length(s) <= rule.max.value)
  }

  /** `z.string()` with length checks; both length checks run and report independently. */
  function ParseString(v: Value, path: Path, rule: StringRule): (r: Parsed<string>)
    ensures r.Success? <==> v.Str? && WithinBounds(v.s, rule)
    ensures r.Success? ==> r.value == v.s
    ensures ReportsAt(r, path)
    ensures !v.Str? ==> r == Failure([Issue(path, InvalidType("string"), None)])
    ensures v.Str? && Length(v.s) < rule.min && (rule.max.Some? ==> rule.min <= rule.max.value) ==>
              r == Failure([Issue(path, TooSmall(rule.min), rule.minMessage)])
    ensures v.Str? && rule.max.Some? && Length(v.s) > rule.max.value && rule.min <= rule.max.value ==>
              r == Failure([Issue(path, TooBig(rule.max.value), rule.maxMessage)])
  {
    if !v.Str? then Failure([Issue(path, InvalidType("string"), None)])
    else
      var n := Length(v.s);
      var small := Issue(path, TooSmall(rule.min), rule.minMessage);
      var tooSmall := n < rule.min;
      var tooBig := rule.max.Some? && n > rule.max.value;
      if tooSmall && tooBig then Failure([small, Issue(path, TooBig(rule.max.value), rule.maxMessage)])
      else if tooSmall then Failure([small])
      else if tooBig then Failure([Issue(path, TooBig(rule.max.value), rule.maxMessage)])
      else Success(v.s)
  }

  /**
   * A string format schema (`z.email()`, `z.uuid()`): a string that `matches`
   * the format. A message given to the schema applies to all its issues.
   */
  function ParseFormat(v: Value, path: Path, format: string, matches: string -> bool, message: Option<string>): (r: Parsed<string>)
    ensures r.Success? <==> v.Str? && matches(v.s)
    ensures r.Success? ==> r.value == v.s
    ensures ReportsAt(r, path)
    ensures r.Failure? ==> forall k :: 0 <= k < |r.error| ==> r.error[k].message == message
  {
    if !v.Str? then Failure([Issue(path, InvalidType("string"), message)])
    else if !matches(v.s) then Failure([Issue(path, InvalidFormat(format), message)])
    else Success(v.s)
  }

  /** `z.enum(options)`: any value other than one of the option strings is an invalid value. */
  function ParseEnum(v: Value, path: Path, options: seq<string>, message: Option<string>): (r: Parsed<string>)
    ensures r.Success? <==> v.Str? && v.s in options
    ensures r.Success? ==> r.value == v.s
    ensures r.Failure? ==> r.error == [Issue(path, InvalidValue(options), message)]
  {
    if v.Str? && v.s in options then Success(v.s)
    else Failure([Issue(path, InvalidValue(options), message)])
  }

  /** `z.coerce.date()`: the time value of `new Date(v)`, which must be a valid date. */
  function ParseDate(rt: Runtime, v: Value, path: Path): (r: Parsed<int>)
    ensures r.Success? <==> NewDate(rt, v).Some?
    ensures r.Success? ==> r.value == NewDate(rt, v).value
    ensures ReportsAt(r, path)
  {
    match NewDate(rt, v)
    case Some(t) => Success(t)
    case None => Failure([Issue(path, InvalidType("date"), None)])
  }

  /** `Number.MAX_SAFE_INTEGER`, the bound of `.int()` in Zod 4. */
  const MaxSafeInteger: int := 0x1F_FFFF_FFFF_FFFF

  /** A number that passes `z.number().int().min(0)`. */
  predicate IsOrder(v: Value) {
    v.Num? && v.x.Floor as real == v.x && 0.0 <= v.x && v.x <= MaxSafeInteger as real
  }

  /**
   * `z.number().int().min(0)`: a number that is a safe integer and not
   * negative. A fraction fails `.int()` alone, since that issue stops the
   * later checks; an integer beyond the safe range and a negative number
   * each report on their own.
   */
  function ParseOrder(v: Value, path: Path): (r: Parsed<nat>)
    ensures r.Success? <==> IsOrder(v)
    ensures r.Success? ==> r.value as real == v.x
    ensures v.Num? && v.x.Floor as real != v.x ==> r == Failure([Issue(path, InvalidType("int"), None)])
    ensures ReportsAt(r, path)
  {
    if !v.Num? then Failure([Issue(path, InvalidType("number"), None)])
    else if v.x.Floor as real != v.x then Failure([Issue(path, InvalidType("int"), None)])
    else
      var x := v.x;
      var integral :=
        if x > MaxSafeInteger as real then [Issue(path, TooBig(MaxSafeInteger), None)]
        else if x < -(MaxSafeInteger as real) then [Issue(path, TooSmall(-MaxSafeInteger), None)]
        else [];
      var nonNegative := if x < 0.0 then [Issue(path, TooSmall(0), None)] else [];
      if integral + nonNegative == [] then Success(x.Floor) else Failure(integral + nonNegative)
  }

  /** `.nullish()`: undefined and null pass untouched; anything else goes to the inner schema. */
  function Nullish<T>(v: Value, inner: Parsed<T>): (r: Parsed<Field<T>>)
    ensures v.Undefined? ==> r == Success(Absent)
    ensures v.Null? ==> r == Success(NullValue)
    ensures !v.Undefined? && !v.Null? ==> r.Success? == inner.Success?
    ensures !v.Undefined? && !v.Null? && r.Success? ==> r.value == Given(inner.value)
    ensures r.Failure? ==> r.error == inner.error
  {
    if v.Undefined? then Success(Absent)
    else if v.Null? then Success(NullValue)
    else if inner.Success? then Success(Given(inner.value))
    else Failure(inner.error)
  }

  /** `.optional()`: undefined passes untouched; null still goes to the inner schema. */
  function Optional<T>(v: Value, inner: Parsed<T>): (r: Parsed<Option<T>>)
    ensures v.Undefined? ==> r == Success(None)
    ensures !v.Undefined? ==> r.Success? == inner.Success?
    ensures !v.Undefined? && r.Success? ==> r.value == Some(inner.value)
    ensures r.Failure? ==> r.error == inner.error
  {
    if v.Undefined? then Success(None)
    else if inner.Success? then Success(Some(inner.value))
    else Failure(inner.error)
  }

  /** `z.object(..)` demands a non-null, non-array object. */
  function NotAnObject<T>(path: Path): Parsed<T> {
    Failure([Issue(path, InvalidType("object"), None)])
  }

  /** The field parsed from a string, null or undefined, as a nullish string schema returns it. */
  function StringField(v: Value): Field<string> {
    match v
    case Undefined => Absent
    case Null => NullValue
    case Str(s) => Given(s)
    case _ => Absent
  }

  /** The field parsed from a value by a nullish coerced-date schema: the time value of `new Date(v)`. */
  function DateField(rt: Runtime, v: Value): Field<int> {
    if v.Undefined? then Absent
    else if v.Null? then NullValue
    else match NewDate(rt, v)
      case Some(t) => Given(t)
      case None => Absent
  }
}
